=== FILE: README.md ===
# ServiceProxy proxy-type factory, modelled in Dafny

`ServiceProxyFactory.GetProxyType(serviceContractType, targetFactory)` takes a
service contract (an interface) and a `Func<object>` that creates the real
service. It returns a type generated at run time. That type implements the
contract and has a parameterless constructor, so a host such as WCF can build it
from the bare type. Each instance invokes the factory once, in its constructor,
and keeps the product in a private init-only `_target` field. Every contract
method is a forwarder: it loads `_target`, pushes its arguments and calls the
same method on the target. Generated types are cached per contract. A later
request for a cached contract gets the cached type, and the factory it passes
is ignored (first writer wins). A type that is not an interface is rejected
with `ArgumentOutOfRangeException`. `CreateType` can also refuse the proxy.
A contract method that is not abstract leaves its forwarder abstract, and
`CreateType` throws `InvalidOperationException`. A contract that is not public,
or whose inherited abstract methods get no forwarder, makes the type loader throw
`TypeLoadException`. In both cases nothing is cached and the exception reaches
the caller.

The project models this as follows:

- `clr.dfy` (module `Clr`): type identities, `MethodInfo`/`TypeInfo` as
  reflection reports them, the .NET attribute bit values, runtime values.
- `il.dfy` (module `Il`): the emitted opcodes (`ldarg.0`, `ldarg i`, `ldfld`,
  `ldsfld`, `stfld`, `call`, `callvirt`, `castclass`, `ret`) and a stack machine
  that runs a body. The world outside the proxy is a parameter: what each call
  returns or throws, given the calls made before it. The machine keeps a trace
  of the calls that leave the proxy.
- `reflection_emit.dfy` (module `ReflectionEmit`): the Reflection.Emit services
  as classes. `ILGenerator` is an instruction buffer. `TypeBuilder` collects
  fields, a constructor and methods. `AppDomain` is the registry of emitted
  types and their static field values, and hands out fresh type identities.
  Its `CreateType` applies two checks, in the runtime's order (`Rejection`).
  First, a concrete class may have no abstract method, or
  `InvalidOperationException` is thrown. Then the type loader requires every
  interface the class declares to be public and to have all its abstract
  methods implemented, inherited ones included, or `TypeLoadException` is
  thrown. Static and default interface methods need no implementation.
- `proxy_shape.dfy` (module `ProxyShape`): the generated type as a function of
  the contract (`ProxyDefinition`), and lemmas about its shape.
- `service_proxy_factory.dfy` (module `ServiceProxy`): the
  `ServiceProxyFactory` class with its cache, and the emitting methods as static
  methods with the source's names. `GetMethodBuilder` is the signature
  function `ProxySignature` passed to `DefineMethod`, and `GetModuleBuilder`
  is folded into `AppDomain.DefineDynamicType`. `Request` gives the meaning of one
  `GetProxyType` call on the abstract state. Lemmas cover single requests and
  whole sequences of requests.
- `proxy_behaviour.dfy` (module `ProxyBehaviour`): runs the emitted constructor
  and forwarding bodies on the stack machine.
- `sample_scenario.dfy` (module `SampleScenario`): `ISampleService` /
  `SampleService` as a concrete world, replaying the unit tests.

Four behaviours of the code worth knowing:

- The cache `_proxyCache` is an instance field. It is not process-wide: two
  `ServiceProxyFactory` objects each emit their own proxy type for the same
  contract. Emitted types live in the application domain, which the factory
  receives in its constructor (`AppDomain.CurrentDomain` in the source).
- The constructor's conformance check is a `castclass`, and `castclass` lets
  `null` through. A factory that returns `null` therefore yields an instance
  whose calls throw `NullReferenceException`. The constructor throws
  `InvalidCastException` for any other non-conforming product
  (`ProxyBehaviour.ConstructorRun`).
- A `null` factory is accepted by `GetProxyType`. The constructor then throws
  `NullReferenceException` before the factory is called.
- `GetMethods` on an interface reports only the methods it declares. For an
  interface that extends another one with abstract methods, the proxy
  therefore has no forwarders for the inherited methods. The loader refuses
  that proxy, and `GetProxyType` throws
  (`SampleScenario.DerivedContractIsRejected`). Inherited static and default
  methods need no forwarder (`SampleScenario.ExtendedContractIsAccepted`).

## Model

| member | source | states |
|---|---|---|
| `ServiceProxy.ServiceProxyFactory.GetProxyType` | ServiceProxy/ServiceProxyFactory.cs:22-27 | result and new (cache, domain) state are exactly `Request` of the old state; the factory's invariant is kept |
| `ServiceProxy.ServiceProxyFactory.constructor` | ServiceProxy/ServiceProxyFactory.cs:14 | a new factory starts with an empty cache over the given application domain |
| `ServiceProxy.RequestValidatesContract` | ServiceProxy/ServiceProxyFactory.cs:24-26 | the error is `ArgumentOutOfRange("serviceContractType", "The service type must be an interface")` if and only if the contract is not an interface, and then nothing changes; a request succeeds if and only if the contract is an interface that is cached or proxyable (public, all methods abstract, every abstract declared or inherited method redeclared) |
| `ServiceProxy.RequestRejectsUnloadable` | ServiceProxy/ServiceProxyFactory.cs:26-36 | a miss for a contract that is not proxyable fails for the fresh type: with InvalidOperationException when some contract method is not abstract, otherwise with TypeLoadException. Cache, types and bindings are unchanged; only the fresh identity is used up |
| `ServiceProxy.RequestHitKeepsBinding` | ServiceProxy/ServiceProxyFactory.cs:26 | on a cache hit the cached type is returned, the state is unchanged and the bound factory stays the first one, whatever factory is passed |
| `ServiceProxy.RequestMissAddsOneEntry` | ServiceProxy/ServiceProxyFactory.cs:26-38 | on a miss for a proxyable contract exactly one entry is added; its type is fresh, is the proxy built for the contract and has the given factory bound; other entries, types and bindings are unchanged |
| `ServiceProxy.RequestPreservesValid` | ServiceProxy/ServiceProxyFactory.cs:14-38 | every request keeps the invariant: every emitted type passed both `CreateType` checks, and cached entries are interfaces mapped to their own proxy definitions, with distinct types for distinct contracts |
| `ServiceProxy.ReplayOnlyGrows` | ServiceProxy/ServiceProxyFactory.cs:14 | over any sequence of requests nothing is evicted or rebound: every earlier entry keeps its type, definition and factory |
| `ServiceProxy.ReplayFirstWriterWins` | ServiceProxy/ServiceProxyFactory.cs:26-37 | after any sequence of requests, the factory bound for a proxyable contract is the one passed with the first request for it |
| `ServiceProxy.CachedTypesImplementContracts` | ServiceProxy/ServiceProxyFactory.cs:29-39 | in a valid state every cached contract is proxyable, and its proxy type implements it, abstract inherited methods included, with no abstract method and one method per contract method |
| `ServiceProxy.ServiceProxyFactory.CreateProxyType` | ServiceProxy/ServiceProxyFactory.cs:29-39 | uses up one fresh identity. If the loader accepts `ProxyDefinition` of the contract, it adds exactly that type and binds the given factory in its `TargetFactory` slot. Otherwise it fails with the error `Rejection` gives for that definition (InvalidOperationException or TypeLoadException) and adds nothing. No other type or static changes |
| `ServiceProxy.ServiceProxyFactory.DefineProxyType` | ServiceProxy/ServiceProxyFactory.cs:31-35 | the builder steps yield a fresh builder whose baked type is exactly `ProxyDefinition` of the contract |
| `ServiceProxy.ServiceProxyFactory.AssignTargetFactory` | ServiceProxy/ServiceProxyFactory.cs:41-45 | sets the public static `TargetFactory` field of the type to the factory, and nothing else |
| `ServiceProxy.ServiceProxyFactory.DefineTargetField` | ServiceProxy/ServiceProxyFactory.cs:47-50 | adds the private init-only `_target` field typed by the contract |
| `ServiceProxy.ServiceProxyFactory.DefineTargetFactoryField` | ServiceProxy/ServiceProxyFactory.cs:67-71 | adds the public static `TargetFactory` field of type `Func<object>` |
| `ServiceProxy.ServiceProxyFactory.ImplementParameterlessConstructor` | ServiceProxy/ServiceProxyFactory.cs:52-65 | the type gets a public parameterless constructor whose body is the eight instructions `ConstructorBody` lists |
| `ServiceProxy.ServiceProxyFactory.ImplementMethods` | ServiceProxy/ServiceProxyFactory.cs:73-86 | appends one forwarding method per contract method, in order, each with the signature and body `ForwardingMethod` gives |
| `ServiceProxy.ServiceProxyFactory.GetTypeBuilder` | ServiceProxy/ServiceProxyFactory.cs:95-104 | a new public class builder, parent `System.Object`, implementing only the contract, under a fresh identity |
| `ProxyShape.GetTargetMethods` | ServiceProxy/ServiceProxyFactory.cs:106-109 | the methods the contract declares, one each and in declaration order; a method it only inherits is not among them |
| `ProxyShape.ProxySignature` | ServiceProxy/ServiceProxyFactory.cs:88-93 | the proxy method keeps the contract method's name, return type and parameter types in order; its attributes differ only in the Abstract bit |
| `ProxyShape.ProxySignatureAttributes` | ServiceProxy/ServiceProxyFactory.cs:90 | the Abstract bit is cleared exactly when the contract method had it; every other attribute bit is kept |
| `ProxyShape.LoadArgumentsShape` | ServiceProxy/ServiceProxyFactory.cs:81-82 | the argument loop emits `ldarg 1` … `ldarg n`, n instructions in increasing order |
| `ProxyShape.ForwardingBodyShape` | ServiceProxy/ServiceProxyFactory.cs:79-84 | a forwarding body is `ldarg.0; ldfld _target; ldarg 1..n; callvirt m; ret`, of length n + 4 |
| `ProxyShape.OverridesForwarder` | ServiceProxy/ServiceProxyFactory.cs:88-93 | the forwarder of a contract method implements an interface method exactly when the contract method has its signature and is abstract and virtual |
| `ProxyShape.ProxyLoadable` | ServiceProxy/ServiceProxyFactory.cs:29-39 | `CreateType` accepts the proxy if and only if the contract is proxyable: public, all its methods abstract, and every abstract declared or inherited method matched by a virtual declared method (static and default inherited methods need nothing). A contract with a non-abstract method is refused with InvalidOperationException; any other non-proxyable contract with TypeLoadException |
| `ProxyShape.ProxyMirrorsInterface` | ServiceProxy/ServiceProxyFactory.cs:73-93 | for an interface whose methods are abstract and virtual, the proxy declares exactly that interface and has one method per contract method, in order, each implementing the contract method at its position; when the interface is public and extends no other, the proxy loads and implements it |
| `ProxyShape.TargetFieldWrittenOnlyByConstructor` | ServiceProxy/ServiceProxyFactory.cs:47-50 | `_target` is private and init-only; the constructor's one `stfld` is the only store into it, and no forwarding method stores into any field |
| `ProxyShape.ProxyStaticSlots` | ServiceProxy/ServiceProxyFactory.cs:67-71 | the proxy's only static field is `TargetFactory`, and it is public, so `InvokeMember` can set it |
| `ProxyBehaviour.LoadArgumentsRun` | ServiceProxy/ServiceProxyFactory.cs:81-82 | running the `ldarg` sequence pushes the call's arguments unchanged and in order above the target |
| `ProxyBehaviour.ForwardingCallsTarget` | ServiceProxy/ServiceProxyFactory.cs:78-84 | a forwarder makes exactly one call: to `_target`, the same method, the same arguments in order. It returns that call's result unchanged (nothing for void) or rethrows its exception unchanged, and writes no field. A null `_target` gives NullReferenceException and no call |
| `ProxyBehaviour.ConstructorRun` | ServiceProxy/ServiceProxyFactory.cs:55-63 | with no factory bound the constructor throws NullReferenceException and calls nothing. Otherwise it invokes the factory once and rethrows its exception, or stores the product in `_target` when the product is null or conforms, or throws InvalidCastException |
| `ProxyBehaviour.InstantiationInvokesFactoryOnce` | ServiceProxy/ServiceProxyFactory.cs:52-65 | when a non-null factory is bound, instantiating a proxy calls only that factory, exactly once; on success `_target` holds the product, which conforms to the contract unless null |
| `ProxyBehaviour.ConstructAllInvokesFactoryPerInstance` | ServiceProxy/ServiceProxyFactory.cs:58-60 | N instantiations invoke the bound factory exactly N times and nothing else; with no factory bound, zero times |
| `ProxyBehaviour.SecondRequestKeepsFirstFactory` | ServiceProxy/ServiceProxyFactory.cs:26-37 | for a proxyable contract not yet cached and a non-null f1, two requests with factories f1, f2 return the same type, and instantiating it invokes f1, never f2 |
| `ProxyBehaviour.CallOnConstructedProxy` | ServiceProxy/ServiceProxyFactory.cs:73-86 | when `_target` is not null, a call of the k-th proxy method reaches the object in `_target` with the arguments unchanged, leaves the heap unchanged and passes back its result or exception |
| `SampleScenario.ConcreteClassIsRejected` | ServiceProxy.Tests/ServiceProxyTests.cs:28-34 | a request for the concrete `SampleService` class fails with the out-of-range error and changes nothing |
| `SampleScenario.DerivedContractIsRejected` | ServiceProxy/ServiceProxyFactory.cs:106-109 | an interface that only inherits `Calculate` gets a proxy without forwarders, so the request fails with TypeLoadException and nothing is cached |
| `SampleScenario.InternalContractIsRejected` | ServiceProxy/ServiceProxyFactory.cs:97-103 | `ISampleService` declared non-public cannot be implemented from the proxy's own assembly: the request fails with TypeLoadException and nothing is cached |
| `SampleScenario.DefaultMethodContractIsRejected` | ServiceProxy/ServiceProxyFactory.cs:88-93 | a contract whose `Calculate` is not abstract gives an abstract forwarder: the request fails with InvalidOperationException and nothing is cached |
| `SampleScenario.ExtendedContractIsAccepted` | ServiceProxy/ServiceProxyFactory.cs:106-109 | an interface extending one with only a default and a static method gets a proxy with just the `Calculate` forwarder, and the request succeeds and caches it under a fresh identity |
| `SampleScenario.SampleRequestCreatesProxy` | ServiceProxy.Tests/ServiceProxyTests.cs:20-26 | the first request for `ISampleService` caches and emits the proxy under the first fresh identity and binds `CreateSampleService` |
| `SampleScenario.SampleConstruction` | ServiceProxy.Tests/ServiceProxyTests.cs:46-53 | instantiating the sample proxy succeeds, calls `CreateSampleService` once and keeps the SampleService it made in `_target` |
| `SampleScenario.SampleCall` | ServiceProxy.Tests/ServiceProxyTests.cs:55-63 | `Calculate(2, 2)` on an instance holding a SampleService returns 4 after exactly one call to that service |
| `SampleScenario.SampleProxyCalculates` | ServiceProxy.Tests/ServiceProxyTests.cs:20-63 | the proxy for `ISampleService` implements it, has the public static `TargetFactory`, can be instantiated, and `Calculate(2, 2)` returns 4 after exactly one factory call and one call to the service |
| `ReflectionEmit.AppDomain.CreateType` | ServiceProxy/ServiceProxyFactory.cs:36 | a type both checks accept is baked under the builder's identity, with its static fields starting out null; otherwise the error `Rejection` gives, and nothing changes |
| `ReflectionEmit.Rejection` | ServiceProxy/ServiceProxyFactory.cs:36 | no error exactly when the type is loadable; InvalidOperationException exactly when the class has an abstract method, checked before the loader's TypeLoadException |
| `ReflectionEmit.AppDomain.SetStaticField` | ServiceProxy/ServiceProxyFactory.cs:43-44 | sets one public static field of an emitted type |
| `ReflectionEmit.AppDomain.DefineDynamicType` | ServiceProxy/ServiceProxyFactory.cs:97-103 | a fresh type identity (the GUID-named assembly, module and type) with the given interfaces |
| `ReflectionEmit.TypeBuilder.DefineField` | ServiceProxy/ServiceProxyFactory.cs:49 | appends one field definition and returns its token |
| `ReflectionEmit.TypeBuilder.DefineConstructor` | ServiceProxy/ServiceProxyFactory.cs:54 | sets the constructor with the given attributes, parameter types and body |
| `ReflectionEmit.TypeBuilder.DefineMethod` | ServiceProxy/ServiceProxyFactory.cs:90-92 | appends one method with the given signature and body |
| `ReflectionEmit.ILGenerator.Emit` | ServiceProxy/ServiceProxyFactory.cs:56-63 | appends one instruction to the body |

## Left out

- Concurrency: `ConcurrentDictionary.GetOrAdd` is modelled as a sequential insert-if-absent. Under a race, `GetOrAdd` may run its value factory more than once and keep one result. The model does not show whether two threads emit one type or two.
- Type, assembly and module names built from GUIDs are not modelled. Only their effect is: every emitted type has a fresh identity (a serial number).
- Reflection.Emit internals are abstract registry operations. This covers assembly and module objects, metadata tokens and byte-level IL encoding. Of the runtime's checks on a new type, the model keeps those a proxy can fail: no abstract method in a concrete class, and every declared interface public and fully implemented. Checks on parts a proxy never has (generic parameters, explicit layout, a sealed or inaccessible parent) are not modelled.
- The builders receive each body once it is complete. In the source, the method or constructor builder is defined first and its `ILGenerator` is filled afterwards. The emitted instructions are the same.
- ServiceProxy.RequestValidatesContract: a `null` contract type is not modelled, because `TypeInfo` is a value. In the source, line 24 throws `NullReferenceException` for it.
- Generic contract methods are not modelled. The loader's handling of a proxy for them, including whether `CreateType` throws, is not captured.
- The cache is keyed by the whole `TypeInfo`, while the source keys it by the `Type` object. This relies on one identity always coming with one description, as reflection guarantees. Two descriptions with the same `id` would get two proxy types in the model.
- ProxyShape.ForwardingBodyShape: counts the instructions the emitting code asks for. `Emit(OpCodes.Ldarg, i)` passes an `int`, so each `ldarg` may be written with a 4-byte operand where `ldarg` takes 2 bytes. The decoded stream could then contain extra bytes (read as `nop`) that the model does not show.
- Instantiation through `Activator.CreateInstance` wraps any exception the constructor throws in `TargetInvocationException`. `ProxyBehaviour.Construct` runs the constructor itself, so the lemmas about it give the constructor's own exception, unwrapped.
- Interface inheritance is flattened: `TypeInfo.inheritedMethods` lists the methods of every interface the contract extends, directly or not. It does not list the base interfaces themselves.
- Properties and events are modelled only through their accessor methods.
- The CLR type system: assignability, boxing and the run-time type of values are parameters of the world (`typeOf`, `implements`). `castclass` is modelled only as "null, or the value's type implements the target type".
- The WCF hosting test (named-pipe `ServiceHost`) and `CustomServiceHostFactory` are hosting and transport glue, so they are not modelled.
- `SampleService`'s call to its logger happens inside the target, so the proxy cannot see it. The sample world folds it into the answer to `Calculate`.

=== FILE: clr.dfy ===
/// The part of the CLR type system the proxy factory relies on: type identities,
/// method signatures with their attribute bits, interface descriptions and
/// runtime values.  Everything else about the CLR (assignability, boxing) is
/// kept abstract.

module Clr {

  /** Identity of a type.  `Builtin` names the framework types the emitted code
      refers to, `Declared` stands for a type of the user's program (an interface
      such as ISampleService or a class such as SampleService), and `Emitted`
      for a type created at run time by Reflection.Emit; the serial number
      stands for the GUID-based name that makes every emitted type distinct. */
  datatype TypeId =
    | Builtin(name: string)
    | Declared(token: nat)
    | Emitted(serial: nat)

  const ObjectType: TypeId := Builtin("System.Object")
  const VoidType: TypeId := Builtin("System.Void")
  const FuncOfObjectType: TypeId := Builtin("System.Func`1[System.Object]")

  /** System.Reflection.MethodAttributes, with the values of the .NET enum. */
  const MethodPublic: bv32 := 0x0006
  const MethodStatic: bv32 := 0x0010
  const MethodVirtual: bv32 := 0x0040
  const MethodHideBySig: bv32 := 0x0080
  const MethodNewSlot: bv32 := 0x0100
  const MethodAbstract: bv32 := 0x0400
  const MethodSpecialName: bv32 := 0x0800
  const MethodRTSpecialName: bv32 := 0x1000

  /** System.Reflection.FieldAttributes. */
  const FieldPrivate: bv32 := 0x0001
  const FieldPublic: bv32 := 0x0006
  const FieldStatic: bv32 := 0x0010
  const FieldInitOnly: bv32 := 0x0020

  /** System.Reflection.TypeAttributes (Class is the zero value). */
  const TypePublic: bv32 := 0x0001
  const TypeClass: bv32 := 0x0000

  /** A method as reflection reports it: name, attribute bits, return type and
      the types of its parameters in declaration order. */
  datatype MethodInfo = MethodInfo(
    name: string,
    attributes: bv32,
    returnType: TypeId,
    parameterTypes: seq<TypeId>)

  /** A type as the factory sees it: its identity, whether it is an interface,
      whether it is visible outside its assembly (a public type, or a public
      type nested in public types), the public methods `Type.GetMethods()`
      returns for it and, for an
      interface, the methods of the interfaces it extends, which `GetMethods()`
      does not return for an interface. Of these, an implementing class must
      implement the abstract ones; a static or default method needs
      nothing. */
  datatype TypeInfo = TypeInfo(
    id: TypeId,
    isInterface: bool,
    isPublic: bool,
    methods: seq<MethodInfo>,
    inheritedMethods: seq<MethodInfo>)

  /** Same name, return type and parameter types: the CLR's matching of an
      implementing method to an interface method. */
  predicate SameSignature(a: MethodInfo, b: MethodInfo)
  {
    a.name == b.name && a.returnType == b.returnType && a.parameterTypes == b.parameterTypes
  }

  predicate HasAttribute(attributes: bv32, flag: bv32)
  {
    attributes & flag == flag
  }

  /** An interface whose methods are all abstract and virtual: the usual
      case, where every method is an instance method without a default body.
      A static interface method (legal in metadata) or a default method is
      not abstract. */
  predicate WellFormedInterface(t: TypeInfo)
  {
    && t.isInterface
    && forall k :: 0 <= k < |t.methods| ==>
         HasAttribute(t.methods[k].attributes, MethodAbstract) &&
         HasAttribute(t.methods[k].attributes, MethodVirtual)
  }

  /** A value on the evaluation stack or in a field: the null reference, an
      integer (primitive arguments such as those of Calculate) or a reference
      to a heap object (a service, a delegate, an exception). */
  datatype Value =
    | Null
    | Int(i: int)
    | Ref(obj: nat)
}

=== FILE: il.dfy ===
/// The CIL opcodes the proxy factory emits, and a small stack machine that runs
/// a method body made of them.  The machine covers exactly the forms emitted:
/// straight-line code with no branches, one evaluation stack, instance fields
/// on a heap, static fields read from the type's static storage, and calls
/// answered by the world outside the proxy (the target object, the factory
/// delegate).

module Il {
  import opened Clr
  import opened Wrappers

  /** A field token: the type that declares the field and its name. */
  datatype FieldRef = FieldRef(owner: TypeId, name: string)

  /** A method token.  `ObjectCtor` is `System.Object`'s parameterless
      constructor, `FuncInvoke` is `Func<object>.Invoke`, and
      `InterfaceMethod` is a method of a service contract. */
  datatype MethodRef =
    | ObjectCtor
    | FuncInvoke
    | InterfaceMethod(declaringType: TypeId, info: MethodInfo)

  datatype Instr =
    | Ldarg0
    | Ldarg(index: nat)
    | Ldfld(field: FieldRef)
    | Ldsfld(field: FieldRef)
    | Stfld(field: FieldRef)
    | Call(callee: MethodRef)
    | Callvirt(callee: MethodRef)
    | Castclass(classType: TypeId)
    | Ret

  /** Number of arguments a call pops besides its receiver. */
  function Arity(callee: MethodRef): nat
  {
    match callee
    case InterfaceMethod(_, info) => |info.parameterTypes|
    case _ => 0
  }

  /** Whether a call leaves a result on the stack. */
  predicate ReturnsValue(callee: MethodRef)
  {
    match callee
    case ObjectCtor => false
    case FuncInvoke => true
    case InterfaceMethod(_, info) => info.returnType != VoidType
  }

  /** A call that leaves the proxy: which object received it, which method
      and which arguments. */
  datatype Event = Invoked(receiver: Value, callee: MethodRef, args: seq<Value>)

  /** How the callee answered: a value (ignored for void methods) or an
      exception object. */
  datatype Outcome = Returned(value: Value) | Threw(exception: Value)

  /** Everything outside the proxy: the run-time type of each value, the
      assignability relation, and how each call is answered given the calls
      made before it (so a factory may hand out a new object on every call). */
  datatype World = World(
    typeOf: Value -> TypeId,
    implements: (TypeId, TypeId) -> bool,
    respond: (seq<Event>, Event) -> Outcome)

  /** An instance field of one object. */
  datatype Slot = Slot(obj: nat, field: FieldRef)

  datatype Fault =
    | Raised(exception: Value)            // an exception thrown by a callee, unchanged
    | NullReference                       // NullReferenceException
    | InvalidCast(from: TypeId, to: TypeId) // InvalidCastException from castclass
    | InvalidProgram                      // code the CLR verifier would reject

  /** What a body runs against: its arguments (`this` first), the static
      fields of the types, and the world. */
  datatype Context = Context(args: seq<Value>, statics: map<FieldRef, Value>, world: World)

  datatype Machine = Machine(stack: seq<Value>, heap: map<Slot, Value>, trace: seq<Event>)

  datatype Completion =
    | Done(result: Option<Value>, heap: map<Slot, Value>, trace: seq<Event>)
    | Faulted(fault: Fault, heap: map<Slot, Value>, trace: seq<Event>)

  datatype StepResult = Continue(next: Machine) | Stop(completion: Completion)

  /** Fields that were never written read as null, as in the CLR. */
  function FieldValue(heap: map<Slot, Value>, s: Slot): Value
  {
    if s in heap then heap[s] else Null
  }

  function StaticValue(statics: map<FieldRef, Value>, f: FieldRef): Value
  {
    if f in statics then statics[f] else Null
  }

  function Push(m: Machine, v: Value): Machine
  {
    m.(stack := m.stack + [v])
  }

  function Fail(m: Machine, f: Fault): StepResult
  {
    Stop(Faulted(f, m.heap, m.trace))
  }

  function LoadArgument(ctx: Context, m: Machine, i: nat): StepResult
  {
    if i < |ctx.args| then Continue(Push(m, ctx.args[i])) else Fail(m, InvalidProgram)
  }

  /** A call: pops the arguments and the receiver; `callvirt` refuses a null
      receiver; Object's constructor has an empty body; every other callee is
      answered by the world, and the call is recorded in the trace. */
  function Invoke(callee: MethodRef, isVirtual: bool, ctx: Context, m: Machine): (r: StepResult)
    ensures r.Continue? ==> m.trace <= r.next.trace && r.next.heap == m.heap
    ensures r.Stop? ==> m.trace <= r.completion.trace && r.completion.heap == m.heap
  {
    var n := Arity(callee);
    if |m.stack| < n + 1 then Fail(m, InvalidProgram)
    else
      var base := |m.stack| - n - 1;
      var receiver := m.stack[base];
      var args := m.stack[base + 1..];
      var rest := m.stack[..base];
      if isVirtual && receiver == Null then Fail(m, NullReference)
      else if callee == ObjectCtor then Continue(m.(stack := rest))
      else
        var ev := Invoked(receiver, callee, args);
        var trace := m.trace + [ev];
        match ctx.world.respond(m.trace, ev)
        case Threw(e) => Stop(Faulted(Raised(e), m.heap, trace))
        case Returned(v) => Continue(Machine(if ReturnsValue(callee) then rest + [v] else rest, m.heap, trace))
  }

  /** One instruction.  Only `Stfld` changes the heap, and no instruction
      removes a call from the trace. */
  function Step(instr: Instr, ctx: Context, m: Machine): (r: StepResult)
    ensures r.Continue? ==> m.trace <= r.next.trace && (!instr.Stfld? ==> r.next.heap == m.heap)
    ensures r.Stop? ==> m.trace <= r.completion.trace && (!instr.Stfld? ==> r.completion.heap == m.heap)
  {
    var sp := |m.stack|;
    match instr
    case Ldarg0 => LoadArgument(ctx, m, 0)
    case Ldarg(i) => LoadArgument(ctx, m, i)
    case Ldfld(f) =>
      if sp == 0 then Fail(m, InvalidProgram)
      else (
        match m.stack[sp - 1]
        case Ref(o) => Continue(m.(stack := m.stack[..sp - 1] + [FieldValue(m.heap, Slot(o, f))]))
        case Null => Fail(m, NullReference)
        case Int(_) => Fail(m, InvalidProgram))
    case Ldsfld(f) => Continue(Push(m, StaticValue(ctx.statics, f)))
    case Stfld(f) =>
      if sp < 2 then Fail(m, InvalidProgram)
      else (
        match m.stack[sp - 2]
        case Ref(o) => Continue(Machine(m.stack[..sp - 2], m.heap[Slot(o, f) := m.stack[sp - 1]], m.trace))
        case Null => Fail(m, NullReference)
        case Int(_) => Fail(m, InvalidProgram))
    case Call(callee) => Invoke(callee, false, ctx, m)
    case Callvirt(callee) => Invoke(callee, true, ctx, m)
    case Castclass(t) =>
      if sp == 0 then Fail(m, InvalidProgram)
      else
        var v := m.stack[sp - 1];
        if v == Null || ctx.world.implements(ctx.world.typeOf(v), t) then Continue(m)
        else Fail(m, InvalidCast(ctx.world.typeOf(v), t))
    case Ret =>
      if sp == 0 then Stop(Done(None, m.heap, m.trace))
      else if sp == 1 then Stop(Done(Some(m.stack[0]), m.heap, m.trace))
      else Fail(m, InvalidProgram)
  }

  /** Runs `code` from `pc` to its `ret`.  Falling off the end of a body is
      invalid code.  The trace of calls only grows. */
  function Exec(code: seq<Instr>, pc: nat, ctx: Context, m: Machine): (c: Completion)
    ensures m.trace <= c.trace
    decreases |code| - pc
  {
    if pc >= |code| then Faulted(InvalidProgram, m.heap, m.trace)
    else
      match Step(code[pc], ctx, m)
      case Continue(next) => Exec(code, pc + 1, ctx, next)
      case Stop(c) => c
  }
}

=== FILE: proxy_behaviour.dfy ===
/// What the emitted IL does when the hosting code instantiates a proxy type
/// and calls it, stated by running the bodies on the stack machine of
/// module Il: the constructor invokes the bound factory exactly once and
/// stores its (cast) product in `_target`; a forwarding method makes exactly
/// one call, on `_target`, with the arguments unchanged and in order, and
/// hands back its result or its exception unchanged.

module ProxyBehaviour {
  import opened Clr
  import opened Il
  import opened ReflectionEmit
  import opened ProxyShape
  import opened ServiceProxy
  import opened Wrappers

  /** The constructor of `def` run on a new object `self`, as `newobj` runs
      it. */
  function Construct(def: TypeDef, self: nat, statics: map<FieldRef, Value>, w: World,
                     heap: map<Slot, Value>, trace: seq<Event>): Completion
  {
    Exec(def.ctor.body, 0, Context([Ref(self)], statics, w), Machine([], heap, trace))
  }

  /** A call of the `k`-th method of `def` on the instance `self`. */
  function CallMethod(def: TypeDef, k: nat, self: nat, args: seq<Value>, statics: map<FieldRef, Value>,
                      w: World, heap: map<Slot, Value>, trace: seq<Event>): Completion
    requires k < |def.methods|
  {
    Exec(def.methods[k].body, 0, Context([Ref(self)] + args, statics, w), Machine([], heap, trace))
  }

  /** The instances `selves` constructed one after another; a constructor
      that throws leaves the next construction to go ahead. */
  function ConstructAll(def: TypeDef, selves: seq<nat>, statics: map<FieldRef, Value>, w: World,
                        heap: map<Slot, Value>, trace: seq<Event>): (map<Slot, Value>, seq<Event>)
    decreases |selves|
  {
    if |selves| == 0 then (heap, trace)
    else
      var c := Construct(def, selves[0], statics, w, heap, trace);
      ConstructAll(def, selves[1..], statics, w, c.heap, c.trace)
  }

  function Repeat(ev: Event, n: nat): (r: seq<Event>)
    ensures |r| == n && forall i :: 0 <= i < n ==> r[i] == ev
  {
    if n == 0 then [] else Repeat(ev, n - 1) + [ev]
  }

  /** The `ldarg 1 .. ldarg n` run pushes the call's arguments, in order,
      above the target. */
  lemma {:induction false} LoadArgumentsRun(code: seq<Instr>, ctx: Context, target: Value, callArgs: seq<Value>,
                                            heap: map<Slot, Value>, trace: seq<Event>, i: nat)
    requires |ctx.args| == |callArgs| + 1 && ctx.args[1..] == callArgs
    requires |code| >= |callArgs| + 2
    requires forall j :: 1 <= j <= |callArgs| ==> code[j + 1] == Ldarg(j)
    requires i <= |callArgs|
    ensures Exec(code, i + 2, ctx, Machine([target] + callArgs[..i], heap, trace))
         == Exec(code, |callArgs| + 2, ctx, Machine([target] + callArgs, heap, trace))
    decreases |callArgs| - i
  {
    if i < |callArgs| {
      var m := Machine([target] + callArgs[..i], heap, trace);
      assert code[i + 2] == Ldarg(i + 1);
      assert ctx.args[i + 1] == callArgs[i];
      assert ([target] + callArgs[..i]) + [callArgs[i]] == [target] + callArgs[..i + 1];
      assert Step(code[i + 2], ctx, m) == Continue(Machine([target] + callArgs[..i + 1], heap, trace));
      LoadArgumentsRun(code, ctx, target, callArgs, heap, trace, i + 1);
    } else {
      assert callArgs[..i] == callArgs;
    }
  }

  /** Forwarding: a call of a forwarding method makes exactly one call, on the
      object in `_target`, of the same contract method with the same
      arguments in the same order, and returns its result unchanged (nothing
      for a void method) or rethrows its exception unchanged; it changes no
      field.  A null `_target` gives a NullReferenceException and no call. */
  lemma ForwardingCallsTarget(serviceType: TypeId, targetMethod: MethodInfo, targetField: FieldRef,
                              self: nat, callArgs: seq<Value>, statics: map<FieldRef, Value>, w: World,
                              heap: map<Slot, Value>, trace: seq<Event>)
    requires |callArgs| == |targetMethod.parameterTypes|
    ensures var c := Exec(ForwardingBody(serviceType, targetMethod, targetField), 0,
                          Context([Ref(self)] + callArgs, statics, w), Machine([], heap, trace));
            var target := FieldValue(heap, Slot(self, targetField));
            var ev := Invoked(target, InterfaceMethod(serviceType, targetMethod), callArgs);
            c == if target == Null then Faulted(NullReference, heap, trace)
                 else match w.respond(trace, ev)
                      case Returned(v) => Done(if targetMethod.returnType == VoidType then None else Some(v), heap, trace + [ev])
                      case Threw(e) => Faulted(Raised(e), heap, trace + [ev])
  {
    var code := ForwardingBody(serviceType, targetMethod, targetField);
    var ctx := Context([Ref(self)] + callArgs, statics, w);
    var n := |callArgs|;
    var target := FieldValue(heap, Slot(self, targetField));
    var callee := InterfaceMethod(serviceType, targetMethod);
    var ev := Invoked(target, callee, callArgs);
    ForwardingBodyShape(serviceType, targetMethod, targetField);
    var m0 := Machine([], heap, trace);
    var m1 := Machine([Ref(self)], heap, trace);
    var m2 := Machine([target], heap, trace);
    assert Step(code[0], ctx, m0) == Continue(m1);
    assert Step(code[1], ctx, m1) == Continue(m2);
    assert [target] + callArgs[..0] == [target];
    assert ctx.args[1..] == callArgs;
    LoadArgumentsRun(code, ctx, target, callArgs, heap, trace, 0);
    var full := Machine([target] + callArgs, heap, trace);
    assert Exec(code, 0, ctx, m0) == Exec(code, n + 2, ctx, full);
    assert full.stack[1..] == callArgs;
    if target != Null {
      match w.respond(trace, ev)
      case Returned(v) =>
        var after := Machine(if ReturnsValue(callee) then [] + [v] else [], heap, trace + [ev]);
        assert Step(code[n + 2], ctx, full) == Continue(after);
        assert Step(code[n + 3], ctx, after)
            == Stop(Done(if targetMethod.returnType == VoidType then None else Some(v), heap, trace + [ev]));
      case Threw(e) =>
        assert Step(code[n + 2], ctx, full) == Stop(Faulted(Raised(e), heap, trace + [ev]));
    }
  }

  /** The constructor: with no factory bound it throws a
      NullReferenceException before calling anything; otherwise it invokes
      the factory exactly once, rethrows what the factory throws, and stores
      the product in `_target` when it is null or implements the contract,
      and throws an InvalidCastException (leaving `_target` unset) when it
      does not. */
  lemma ConstructorRun(serviceType: TypeId, factoryField: FieldRef, targetField: FieldRef, self: nat,
                       statics: map<FieldRef, Value>, w: World, heap: map<Slot, Value>, trace: seq<Event>)
    ensures var c := Exec(ConstructorBody(serviceType, factoryField, targetField), 0,
                          Context([Ref(self)], statics, w), Machine([], heap, trace));
            var f := StaticValue(statics, factoryField);
            var ev := Invoked(f, FuncInvoke, []);
            c == if f == Null then Faulted(NullReference, heap, trace)
                 else match w.respond(trace, ev)
                      case Threw(e) => Faulted(Raised(e), heap, trace + [ev])
                      case Returned(v) =>
                        if v == Null || w.implements(w.typeOf(v), serviceType)
                        then Done(None, heap[Slot(self, targetField) := v], trace + [ev])
                        else Faulted(InvalidCast(w.typeOf(v), serviceType), heap, trace + [ev])
  {
    var code := ConstructorBody(serviceType, factoryField, targetField);
    var ctx := Context([Ref(self)], statics, w);
    var f := StaticValue(statics, factoryField);
    var ev := Invoked(f, FuncInvoke, []);
    var receiver := Ref(self);
    var m0 := Machine([], heap, trace);
    var m1 := Machine([receiver], heap, trace);
    var m2 := Machine([], heap, trace);
    var m3 := Machine([receiver], heap, trace);
    var m4 := Machine([receiver, f], heap, trace);
    assert Step(code[0], ctx, m0) == Continue(m1);
    assert Step(code[1], ctx, m1) == Continue(m2);
    assert Step(code[2], ctx, m2) == Continue(m3);
    assert Step(code[3], ctx, m3) == Continue(m4);
    assert Exec(code, 0, ctx, m0) == Exec(code, 1, ctx, m1);
    assert Exec(code, 1, ctx, m1) == Exec(code, 2, ctx, m2);
    assert Exec(code, 2, ctx, m2) == Exec(code, 3, ctx, m3);
    assert Exec(code, 3, ctx, m3) == Exec(code, 4, ctx, m4);
    if f != Null {
      match w.respond(trace, ev)
      case Threw(e) =>
        assert Step(code[4], ctx, m4) == Stop(Faulted(Raised(e), heap, trace + [ev]));
      case Returned(v) =>
        var m5 := Machine([receiver, v], heap, trace + [ev]);
        assert Step(code[4], ctx, m4) == Continue(m5);
        assert Exec(code, 4, ctx, m4) == Exec(code, 5, ctx, m5);
        if v == Null || w.implements(w.typeOf(v), serviceType) {
          assert Step(code[5], ctx, m5) == Continue(m5);
          assert Exec(code, 5, ctx, m5) == Exec(code, 6, ctx, m5);
          var m7 := Machine([], heap[Slot(self, targetField) := v], trace + [ev]);
          assert Step(code[6], ctx, m5) == Continue(m7);
          assert Exec(code, 6, ctx, m5) == Exec(code, 7, ctx, m7);
          assert Step(code[7], ctx, m7) == Stop(Done(None, m7.heap, m7.trace));
        } else {
          assert Step(code[5], ctx, m5) == Stop(Faulted(InvalidCast(w.typeOf(v), serviceType), heap, trace + [ev]));
        }
    }
  }

  /** Instantiating a generated proxy type calls nothing but its bound
      factory, exactly once, and on success leaves the factory's product in
      the instance's `_target`; the product then conforms to the contract
      unless it is null. */
  lemma InstantiationInvokesFactoryOnce(serviceType: TypeInfo, t: TypeId, self: nat,
                                        statics: map<FieldRef, Value>, w: World,
                                        heap: map<Slot, Value>, trace: seq<Event>)
    requires StaticValue(statics, TargetFactorySlot(t)) != Null
    ensures var f := StaticValue(statics, TargetFactorySlot(t));
            var ev := Invoked(f, FuncInvoke, []);
            var c := Construct(ProxyDefinition(serviceType, t), self, statics, w, heap, trace);
            && c.trace == trace + [ev]
            && (c.Done? ==>
                  && w.respond(trace, ev).Returned?
                  && var product := w.respond(trace, ev).value;
                  && FieldValue(c.heap, Slot(self, TargetSlot(t))) == product
                  && (product == Null || w.implements(w.typeOf(product), serviceType.id)))
  {
    ConstructorRun(serviceType.id, TargetFactorySlot(t), TargetSlot(t), self, statics, w, heap, trace);
  }

  /** N instantiations invoke the bound factory exactly N times and call
      nothing else; with no factory bound they call nothing at all. */
  lemma {:induction false} ConstructAllInvokesFactoryPerInstance(serviceType: TypeInfo, t: TypeId, selves: seq<nat>,
                                                                  statics: map<FieldRef, Value>, w: World,
                                                                  heap: map<Slot, Value>, trace: seq<Event>)
    ensures var f := StaticValue(statics, TargetFactorySlot(t));
            ConstructAll(ProxyDefinition(serviceType, t), selves, statics, w, heap, trace).1
              == trace + Repeat(Invoked(f, FuncInvoke, []), if f == Null then 0 else |selves|)
    decreases |selves|
  {
    var f := StaticValue(statics, TargetFactorySlot(t));
    var ev := Invoked(f, FuncInvoke, []);
    if |selves| > 0 {
      var def := ProxyDefinition(serviceType, t);
      var c := Construct(def, selves[0], statics, w, heap, trace);
      ConstructorRun(serviceType.id, TargetFactorySlot(t), TargetSlot(t), selves[0], statics, w, heap, trace);
      ConstructAllInvokesFactoryPerInstance(serviceType, t, selves[1..], statics, w, c.heap, c.trace);
      if f != Null {
        assert c.trace == trace + [ev];
        assert Repeat(ev, |selves|) == [ev] + Repeat(ev, |selves| - 1);
      }
    }
  }

  /** The behaviour a caller sees of the first-writer-wins cache: two
      requests for the same new contract with factories f1 and f2 return the
      same type, and instantiating it afterwards invokes f1, never f2. */
  lemma SecondRequestKeepsFirstFactory(s: ProxyState, serviceType: TypeInfo, f1: Value, f2: Value,
                                       self: nat, w: World, heap: map<Slot, Value>, trace: seq<Event>)
    requires ValidState(s)
    requires serviceType.isInterface && serviceType !in s.cache && ProxyableContract(serviceType) && f1 != Null
    ensures var (r1, s1) := Request(s, serviceType, f1);
            var (r2, s2) := Request(s1, serviceType, f2);
            && r1.Success? && r2 == r1
            && Construct(s2.types[r1.value], self, s2.statics, w, heap, trace).trace
                 == trace + [Invoked(f1, FuncInvoke, [])]
  {
    var (r1, s1) := Request(s, serviceType, f1);
    RequestMissAddsOneEntry(s, serviceType, f1);
    RequestPreservesValid(s, serviceType, f1);
    RequestHitKeepsBinding(s1, serviceType, f2);
    InstantiationInvokesFactoryOnce(serviceType, r1.value, self, s1.statics, w, heap, trace);
  }

  /** A call on a constructed proxy: the call goes to the object the factory
      produced, with the arguments unchanged. */
  lemma CallOnConstructedProxy(serviceType: TypeInfo, t: TypeId, k: nat, self: nat, callArgs: seq<Value>,
                               statics: map<FieldRef, Value>, w: World,
                               heap: map<Slot, Value>, trace: seq<Event>)
    requires k < |serviceType.methods| && |callArgs| == |serviceType.methods[k].parameterTypes|
    requires FieldValue(heap, Slot(self, TargetSlot(t))) != Null
    ensures var def := ProxyDefinition(serviceType, t);
            var target := FieldValue(heap, Slot(self, TargetSlot(t)));
            var m := serviceType.methods[k];
            var ev := Invoked(target, InterfaceMethod(serviceType.id, m), callArgs);
            var c := CallMethod(def, k, self, callArgs, statics, w, heap, trace);
            && c.trace == trace + [ev]
            && c.heap == heap
            && (w.respond(trace, ev).Threw? ==> c == Faulted(Raised(w.respond(trace, ev).exception), heap, trace + [ev]))
            && (w.respond(trace, ev).Returned? ==> c.Done?)
            && (w.respond(trace, ev).Returned? && m.returnType != VoidType ==>
                  c == Done(Some(w.respond(trace, ev).value), heap, trace + [ev]))
  {
    ForwardingCallsTarget(serviceType.id, serviceType.methods[k], TargetSlot(t), self, callArgs, statics, w, heap, trace);
  }
}

=== FILE: proxy_shape.dfy ===
/// What a generated proxy type consists of, as a function of the service
/// contract it is generated for: its fields, the IL of its parameterless
/// constructor, and one forwarding method per contract method.  The emitting
/// methods in ServiceProxy are proved to build exactly this definition.

module ProxyShape {
  import opened Clr
  import opened Il
  import opened ReflectionEmit
  import opened Wrappers

  const TargetFactoryFieldName: string := "TargetFactory"
  const TargetFieldName: string := "_target"

  const ProxyTypeAttributes: bv32 := TypePublic | TypeClass
  const TargetFactoryFieldAttributes: bv32 := FieldPublic | FieldStatic
  const TargetFieldAttributes: bv32 := FieldInitOnly | FieldPrivate

  /** The public static `TargetFactory` field of proxy type `t`. */
  function TargetFactorySlot(t: TypeId): FieldRef
  {
    FieldRef(t, TargetFactoryFieldName)
  }

  /** The private init-only `_target` field of proxy type `t`. */
  function TargetSlot(t: TypeId): FieldRef
  {
    FieldRef(t, TargetFieldName)
  }

  /** The methods the proxy implements: what `GetMethods` reports for the
      contract, its declared methods in declaration order and none of those
      it only inherits from the interfaces it extends. */
  function GetTargetMethods(serviceType: TypeInfo): (targetMethods: seq<MethodInfo>)
    ensures |targetMethods| == |serviceType.methods|
    ensures forall k :: 0 <= k < |targetMethods| ==> targetMethods[k] == serviceType.methods[k]
    ensures forall m :: m in serviceType.inheritedMethods && m !in serviceType.methods ==> m !in targetMethods
  {
    serviceType.methods
  }

  /** The signature `DefineMethod` receives for a contract method: same name,
      return type and parameter types, with the Abstract attribute bit
      toggled. */
  function ProxySignature(targetMethod: MethodInfo): (sig: MethodInfo)
    ensures sig.name == targetMethod.name && sig.returnType == targetMethod.returnType
    ensures sig.parameterTypes == targetMethod.parameterTypes
    ensures sig.attributes ^ MethodAbstract == targetMethod.attributes
  {
    MethodInfo(targetMethod.name, targetMethod.attributes ^ MethodAbstract,
               targetMethod.returnType, targetMethod.parameterTypes)
  }

  /** `ldarg 1`, ..., `ldarg n`. */
  function LoadArguments(n: nat): seq<Instr>
  {
    if n == 0 then [] else LoadArguments(n - 1) + [Ldarg(n)]
  }

  function ForwardingBody(serviceType: TypeId, targetMethod: MethodInfo, targetField: FieldRef): seq<Instr>
  {
    [Ldarg0, Ldfld(targetField)]
    + LoadArguments(|targetMethod.parameterTypes|)
    + [Callvirt(InterfaceMethod(serviceType, targetMethod)), Ret]
  }

  function ForwardingMethod(serviceType: TypeId, targetMethod: MethodInfo, targetField: FieldRef): MethodDef
  {
    MethodDef(ProxySignature(targetMethod), ForwardingBody(serviceType, targetMethod, targetField))
  }

  function ForwardingMethods(serviceType: TypeInfo, targetField: FieldRef): seq<MethodDef>
  {
    seq(|GetTargetMethods(serviceType)|,
        k requires 0 <= k < |GetTargetMethods(serviceType)| =>
          ForwardingMethod(serviceType.id, GetTargetMethods(serviceType)[k], targetField))
  }

  function ConstructorBody(serviceType: TypeId, factoryField: FieldRef, targetField: FieldRef): seq<Instr>
  {
    [Ldarg0, Call(ObjectCtor),
     Ldarg0, Ldsfld(factoryField), Callvirt(FuncInvoke), Castclass(serviceType), Stfld(targetField),
     Ret]
  }

  /** The proxy type generated for `serviceType` under the identity `t`. */
  function ProxyDefinition(serviceType: TypeInfo, t: TypeId): TypeDef
  {
    TypeDef(
      t, ProxyTypeAttributes, ObjectType, [serviceType],
      [FieldDef(TargetFactoryFieldName, FuncOfObjectType, TargetFactoryFieldAttributes),
       FieldDef(TargetFieldName, serviceType.id, TargetFieldAttributes)],
      ConstructorDef(ConstructorAttributes, [], ConstructorBody(serviceType.id, TargetFactorySlot(t), TargetSlot(t))),
      ForwardingMethods(serviceType, TargetSlot(t)))
  }

  /** Some declared method has the signature of `decl` and is virtual, so
      that its forwarder can implement `decl`. */
  predicate Redeclared(methods: seq<MethodInfo>, decl: MethodInfo)
  {
    exists j :: 0 <= j < |methods| && SameSignature(methods[j], decl) && HasAttribute(methods[j].attributes, MethodVirtual)
  }

  /** Every abstract method of `decls` is redeclared among `methods`. */
  predicate AllRedeclared(methods: seq<MethodInfo>, decls: seq<MethodInfo>)
  {
    forall k :: 0 <= k < |decls| && HasAttribute(decls[k].attributes, MethodAbstract) ==>
      Redeclared(methods, decls[k])
  }

  predicate AllAbstract(methods: seq<MethodInfo>)
  {
    forall k :: 0 <= k < |methods| ==> HasAttribute(methods[k].attributes, MethodAbstract)
  }

  /** The contracts whose proxy `CreateType` accepts: every declared method
      is abstract (so that its forwarder is not), the contract is public (so
      that the proxy's dynamic assembly can implement it), and every abstract
      method the contract declares or inherits is matched by a virtual
      declared method. */
  predicate ProxyableContract(serviceType: TypeInfo)
  {
    && AllAbstract(serviceType.methods)
    && serviceType.isPublic
    && AllRedeclared(serviceType.methods, serviceType.methods)
    && AllRedeclared(serviceType.methods, serviceType.inheritedMethods)
  }

  lemma {:induction false} LoadArgumentsShape(n: nat)
    ensures |LoadArguments(n)| == n
    ensures forall i :: 0 <= i < n ==> LoadArguments(n)[i] == Ldarg(i + 1)
  {
    if n > 0 {
      LoadArgumentsShape(n - 1);
    }
  }

  /** A forwarding body is `ldarg.0; ldfld _target; ldarg 1 .. ldarg n;
      callvirt m; ret`: n + 4 instructions for a method of n parameters. */
  lemma ForwardingBodyShape(serviceType: TypeId, targetMethod: MethodInfo, targetField: FieldRef)
    ensures var body := ForwardingBody(serviceType, targetMethod, targetField);
            var n := |targetMethod.parameterTypes|;
            && |body| == n + 4
            && body[0] == Ldarg0
            && body[1] == Ldfld(targetField)
            && (forall i :: 1 <= i <= n ==> body[i + 1] == Ldarg(i))
            && body[n + 2] == Callvirt(InterfaceMethod(serviceType, targetMethod))
            && body[n + 3] == Ret
  {
    LoadArgumentsShape(|targetMethod.parameterTypes|);
  }

  /** DefineMethod receives the contract method's attributes with the
      Abstract bit flipped: an abstract contract method yields a concrete
      proxy method and every other attribute is kept. */
  lemma ProxySignatureAttributes(targetMethod: MethodInfo)
    ensures var a := ProxySignature(targetMethod).attributes;
            && (HasAttribute(targetMethod.attributes, MethodAbstract) <==> !HasAttribute(a, MethodAbstract))
            && a & !MethodAbstract == targetMethod.attributes & !MethodAbstract
  {
  }

  /** The forwarder of contract method `m` implements `decl` exactly when
      `m` has the signature of `decl` and is abstract and virtual. */
  lemma OverridesForwarder(m: MethodInfo, decl: MethodInfo)
    ensures Overrides(ProxySignature(m), decl) <==>
            && SameSignature(m, decl)
            && HasAttribute(m.attributes, MethodVirtual)
            && HasAttribute(m.attributes, MethodAbstract)
  {
    ProxySignatureAttributes(m);
  }

  /** When every contract method is abstract, the forwarders implement
      exactly the interface methods some virtual contract method redeclares. */
  lemma ForwardersImplement(serviceType: TypeInfo, t: TypeId, decl: MethodInfo)
    requires AllAbstract(serviceType.methods)
    ensures HasImplementation(ProxyDefinition(serviceType, t).methods, decl) <==> Redeclared(serviceType.methods, decl)
  {
    var def := ProxyDefinition(serviceType, t);
    if HasImplementation(def.methods, decl) {
      var j :| 0 <= j < |def.methods| && Overrides(def.methods[j].signature, decl);
      OverridesForwarder(serviceType.methods[j], decl);
    }
    if Redeclared(serviceType.methods, decl) {
      var j :| 0 <= j < |serviceType.methods| && SameSignature(serviceType.methods[j], decl)
               && HasAttribute(serviceType.methods[j].attributes, MethodVirtual);
      OverridesForwarder(serviceType.methods[j], decl);
      assert Overrides(def.methods[j].signature, decl);
    }
  }

  lemma ForwardersImplementAll(serviceType: TypeInfo, t: TypeId, decls: seq<MethodInfo>)
    requires AllAbstract(serviceType.methods)
    ensures AllImplemented(ProxyDefinition(serviceType, t).methods, decls) <==> AllRedeclared(serviceType.methods, decls)
  {
    forall k | 0 <= k < |decls| && HasAttribute(decls[k].attributes, MethodAbstract)
      ensures HasImplementation(ProxyDefinition(serviceType, t).methods, decls[k]) <==> Redeclared(serviceType.methods, decls[k])
    {
      ForwardersImplement(serviceType, t, decls[k]);
    }
  }

  /** No forwarder is abstract exactly when every contract method is. */
  lemma ForwardersConcrete(serviceType: TypeInfo, t: TypeId)
    ensures NoAbstractMethod(ProxyDefinition(serviceType, t).methods) <==> AllAbstract(serviceType.methods)
  {
    var def := ProxyDefinition(serviceType, t);
    forall k | 0 <= k < |serviceType.methods|
      ensures HasAttribute(def.methods[k].signature.attributes, MethodAbstract)
              <==> !HasAttribute(serviceType.methods[k].attributes, MethodAbstract)
    {
      ProxySignatureAttributes(serviceType.methods[k]);
    }
  }

  /** `CreateType` accepts the generated proxy exactly for the proxyable
      contracts. Otherwise it throws InvalidOperationException when some
      contract method is not abstract, and TypeLoadException when all are but
      the contract is not public or some method is left unimplemented. */
  lemma ProxyLoadable(serviceType: TypeInfo, t: TypeId)
    ensures Loadable(ProxyDefinition(serviceType, t)) <==> ProxyableContract(serviceType)
    ensures var rejection := Rejection(ProxyDefinition(serviceType, t));
            && (!AllAbstract(serviceType.methods) ==> rejection == Some(InvalidOperation(t)))
            && (AllAbstract(serviceType.methods) && !ProxyableContract(serviceType) ==>
                  rejection == Some(TypeLoadException(t)))
  {
    var def := ProxyDefinition(serviceType, t);
    ForwardersConcrete(serviceType, t);
    assert def.interfaces == [serviceType];
    assert LoaderAccepts(def) <==> serviceType.isPublic && ImplementsMethods(def, serviceType);
    if AllAbstract(serviceType.methods) {
      ForwardersImplementAll(serviceType, t, serviceType.methods);
      ForwardersImplementAll(serviceType, t, serviceType.inheritedMethods);
    }
  }

  /** The generated type declares exactly the requested contract, with one
      method per contract method, in the same order, each implementing the
      contract method at its position; when the contract is public and
      extends no other interface, `CreateType` accepts the type and it
      implements the contract. */
  lemma ProxyMirrorsInterface(serviceType: TypeInfo, t: TypeId)
    requires WellFormedInterface(serviceType)
    ensures var def := ProxyDefinition(serviceType, t);
            && def.interfaces == [serviceType]
            && |def.methods| == |serviceType.methods|
            && (forall k :: 0 <= k < |def.methods| ==> Overrides(def.methods[k].signature, serviceType.methods[k]))
            && (serviceType.isPublic && serviceType.inheritedMethods == [] ==> Loadable(def) && Implements(def, serviceType))
  {
    var def := ProxyDefinition(serviceType, t);
    forall k | 0 <= k < |serviceType.methods|
      ensures Overrides(def.methods[k].signature, serviceType.methods[k])
    {
      OverridesForwarder(serviceType.methods[k], serviceType.methods[k]);
    }
    if serviceType.isPublic && serviceType.inheritedMethods == [] {
      forall k | 0 <= k < |serviceType.methods|
        ensures Redeclared(serviceType.methods, serviceType.methods[k])
      {
        assert SameSignature(serviceType.methods[k], serviceType.methods[k]);
      }
      assert ProxyableContract(serviceType);
      ProxyLoadable(serviceType, t);
      assert def.interfaces[0] == serviceType;
    }
  }

  /** `_target` is private and init-only, and the only instruction of the
      whole type that stores into it is the constructor's `stfld`; no
      forwarding method stores into any field. */
  lemma TargetFieldWrittenOnlyByConstructor(serviceType: TypeInfo, t: TypeId)
    ensures var def := ProxyDefinition(serviceType, t);
            && def.fields[1] == FieldDef(TargetFieldName, serviceType.id, FieldInitOnly | FieldPrivate)
            && (forall i :: 0 <= i < |def.ctor.body| ==> (def.ctor.body[i].Stfld? <==> i == 6))
            && def.ctor.body[6] == Stfld(TargetSlot(t))
            && (forall k, i :: 0 <= k < |def.methods| && 0 <= i < |def.methods[k].body| ==> !def.methods[k].body[i].Stfld?)
  {
    var def := ProxyDefinition(serviceType, t);
    forall k, i | 0 <= k < |def.methods| && 0 <= i < |def.methods[k].body|
      ensures !def.methods[k].body[i].Stfld?
    {
      var m := serviceType.methods[k];
      ForwardingBodyShape(serviceType.id, m, TargetSlot(t));
      var n := |m.parameterTypes|;
      if 2 <= i < n + 2 {
        assert def.methods[k].body[(i - 1) + 1] == Ldarg(i - 1);
      }
    }
  }

  /** The proxy has one static field, the public `TargetFactory`, so
      `InvokeMember` can set it. */
  lemma ProxyStaticSlots(serviceType: TypeInfo, t: TypeId)
    ensures StaticSlots(ProxyDefinition(serviceType, t)) == {TargetFactorySlot(t)}
    ensures HasPublicStaticField(ProxyDefinition(serviceType, t), TargetFactoryFieldName)
  {
    var def := ProxyDefinition(serviceType, t);
    assert !HasAttribute(def.fields[1].attributes, FieldStatic);
    assert HasAttribute(def.fields[0].attributes, FieldStatic);
    assert IsPublicStatic(def.fields[0]);
    assert StaticSlots(def) == {TargetFactorySlot(t)} by {
      forall f | f in StaticSlots(def) ensures f == TargetFactorySlot(t) {
        var k :| 0 <= k < |def.fields| && HasAttribute(def.fields[k].attributes, FieldStatic) && f == FieldRef(def.id, def.fields[k].name);
        assert k == 0;
      }
      assert TargetFactorySlot(t) == FieldRef(def.id, def.fields[0].name);
    }
  }
}

=== FILE: reflection_emit.dfy ===
/// The Reflection.Emit services the proxy factory uses, as abstract operations
/// on a registry of emitted types: an IL buffer (ILGenerator), a type under
/// construction (TypeBuilder) and the application domain that hands out fresh
/// type identities, bakes builders into types (refusing those `CreateType` or the
/// type loader rejects) and stores static field values.

module ReflectionEmit {
  import opened Clr
  import opened Il
  import opened Wrappers

  datatype FieldDef = FieldDef(name: string, fieldType: TypeId, attributes: bv32)

  datatype ConstructorDef = ConstructorDef(attributes: bv32, parameterTypes: seq<TypeId>, body: seq<Instr>)

  datatype MethodDef = MethodDef(signature: MethodInfo, body: seq<Instr>)

  /** A baked type: what the runtime knows of a type once `CreateType` ran. */
  datatype TypeDef = TypeDef(
    id: TypeId,
    attributes: bv32,
    parent: TypeId,
    interfaces: seq<TypeInfo>,
    fields: seq<FieldDef>,
    ctor: ConstructorDef,
    methods: seq<MethodDef>)

  /** Why `CreateType` refused a type: its own check that a concrete class
      has no abstract method (System.InvalidOperationException), or the type
      loader's (System.TypeLoadException). */
  datatype CreateTypeError =
    | InvalidOperation(typeId: TypeId)
    | TypeLoadException(typeId: TypeId)

  const ConstructorAttributes: bv32 := MethodPublic | MethodHideBySig | MethodSpecialName | MethodRTSpecialName

  /** The constructor the runtime supplies when a builder defines none. */
  const DefaultConstructorBody: seq<Instr> := [Ldarg0, Call(ObjectCtor), Ret]

  const FieldAccessMask: bv32 := 0x0007

  predicate IsPublicStatic(f: FieldDef)
  {
    f.attributes & FieldAccessMask == FieldPublic && HasAttribute(f.attributes, FieldStatic)
  }

  predicate HasPublicStaticField(t: TypeDef, name: string)
  {
    exists k :: 0 <= k < |t.fields| && t.fields[k].name == name && IsPublicStatic(t.fields[k])
  }

  /** `impl` implements the interface method `decl`: the same signature, and
      a virtual method with a body. */
  predicate Overrides(impl: MethodInfo, decl: MethodInfo)
  {
    && SameSignature(impl, decl)
    && HasAttribute(impl.attributes, MethodVirtual)
    && !HasAttribute(impl.attributes, MethodAbstract)
  }

  /** Some method of `methods` implements `decl`. */
  predicate HasImplementation(methods: seq<MethodDef>, decl: MethodInfo)
  {
    exists j :: 0 <= j < |methods| && Overrides(methods[j].signature, decl)
  }

  /** Every abstract method of `decls` has an implementation among
      `methods`; a static or default interface method needs none. */
  predicate AllImplemented(methods: seq<MethodDef>, decls: seq<MethodInfo>)
  {
    forall k :: 0 <= k < |decls| && HasAttribute(decls[k].attributes, MethodAbstract) ==>
      HasImplementation(methods, decls[k])
  }

  /** Every abstract method the interface declares or inherits is
      implemented. */
  predicate ImplementsMethods(def: TypeDef, serviceType: TypeInfo)
  {
    AllImplemented(def.methods, serviceType.methods) && AllImplemented(def.methods, serviceType.inheritedMethods)
  }

  predicate NoAbstractMethod(methods: seq<MethodDef>)
  {
    forall j :: 0 <= j < |methods| ==> !HasAttribute(methods[j].signature.attributes, MethodAbstract)
  }

  /** The type declares the interface and implements every abstract method
      of it. */
  predicate Implements(def: TypeDef, serviceType: TypeInfo)
  {
    serviceType in def.interfaces && ImplementsMethods(def, serviceType)
  }

  /** The type loader's conditions on the interfaces of a class emitted into
      a dynamic assembly of its own: each is accessible from there (public)
      and its abstract methods are implemented, inherited ones included. */
  predicate LoaderAccepts(def: TypeDef)
  {
    forall contract :: contract in def.interfaces ==> contract.isPublic && ImplementsMethods(def, contract)
  }

  /** `CreateType` succeeds: no abstract method on the concrete class, and
      the loader accepts it. */
  predicate Loadable(def: TypeDef)
  {
    NoAbstractMethod(def.methods) && LoaderAccepts(def)
  }

  /** The error `CreateType` throws for `def`, if any: its own abstract-method
      check comes before the type loader's. */
  function Rejection(def: TypeDef): (r: Option<CreateTypeError>)
    ensures r.None? <==> Loadable(def)
    ensures r == Some(InvalidOperation(def.id)) <==> !NoAbstractMethod(def.methods)
  {
    if !NoAbstractMethod(def.methods) then Some(InvalidOperation(def.id))
    else if !LoaderAccepts(def) then Some(TypeLoadException(def.id))
    else None
  }

  /** A registry of emitted types: each under a used identity, each one
      `Loadable`. */
  ghost predicate RegistryValid(types: map<TypeId, TypeDef>, nextSerial: nat)
  {
    forall t :: t in types ==> t.Emitted? && t.serial < nextSerial && types[t].id == t && Loadable(types[t])
  }

  /** The static storage a baked type brings with it. */
  function StaticSlots(t: TypeDef): set<FieldRef>
  {
    set k | 0 <= k < |t.fields| && HasAttribute(t.fields[k].attributes, FieldStatic) :: FieldRef(t.id, t.fields[k].name)
  }

  /** The buffer of one method body under construction. */
  class ILGenerator {
    var code: seq<Instr>

    /** Stands for `GetILGenerator()` on a constructor or method builder,
        which hands out a generator over an empty body. */
    constructor ()
      ensures code == []
    {
      code := [];
    }

    method Emit(op: Instr)
      modifies this
      ensures code == old(code) + [op]
    {
      code := code + [op];
    }
  }

  class TypeBuilder {
    const id: TypeId
    const attributes: bv32
    const parent: TypeId
    const interfaces: seq<TypeInfo>
    var fields: seq<FieldDef>
    var ctor: Option<ConstructorDef>
    var methods: seq<MethodDef>

    constructor (id: TypeId, attributes: bv32, parent: TypeId, interfaces: seq<TypeInfo>)
      ensures this.id == id && this.attributes == attributes && this.parent == parent
      ensures this.interfaces == interfaces
      ensures fields == [] && ctor == None && methods == []
    {
      this.id := id;
      this.attributes := attributes;
      this.parent := parent;
      this.interfaces := interfaces;
      fields := [];
      ctor := None;
      methods := [];
    }

    method DefineField(name: string, fieldType: TypeId, fieldAttributes: bv32) returns (f: FieldRef)
      modifies this`fields
      ensures fields == old(fields) + [FieldDef(name, fieldType, fieldAttributes)]
      ensures f == FieldRef(id, name)
    {
      fields := fields + [FieldDef(name, fieldType, fieldAttributes)];
      f := FieldRef(id, name);
    }

    method DefineConstructor(ctorAttributes: bv32, parameterTypes: seq<TypeId>, body: seq<Instr>)
      modifies this`ctor
      ensures ctor == Some(ConstructorDef(ctorAttributes, parameterTypes, body))
    {
      ctor := Some(ConstructorDef(ctorAttributes, parameterTypes, body));
    }

    method DefineMethod(signature: MethodInfo, body: seq<Instr>)
      modifies this`methods
      ensures methods == old(methods) + [MethodDef(signature, body)]
    {
      methods := methods + [MethodDef(signature, body)];
    }

    /** The type `CreateType` makes of this builder. */
    function Bake(): TypeDef
      reads this
    {
      TypeDef(id, attributes, parent, interfaces, fields,
              if ctor.Some? then ctor.value else ConstructorDef(ConstructorAttributes, [], DefaultConstructorBody),
              methods)
    }
  }

  /** The application domain: every emitted type, the values of their static
      fields, and the counter that makes each new type identity fresh (the
      GUID-named dynamic assembly, module and type of the source). */
  class AppDomain {
    var types: map<TypeId, TypeDef>
    var statics: map<FieldRef, Value>
    var nextSerial: nat

    ghost predicate Valid()
      reads this
    {
      RegistryValid(types, nextSerial)
    }

    constructor ()
      ensures Valid()
      ensures types == map[] && statics == map[] && nextSerial == 0
    {
      types := map[];
      statics := map[];
      nextSerial := 0;
    }

    /** A new dynamic assembly and module, and in it a public class with
        parent System.Object implementing `interfaces`. */
    method DefineDynamicType(typeAttributes: bv32, interfaces: seq<TypeInfo>) returns (tb: TypeBuilder)
      requires Valid()
      modifies this`nextSerial
      ensures Valid()
      ensures nextSerial == old(nextSerial) + 1
      ensures fresh(tb) && tb.id == Emitted(old(nextSerial)) && tb.id !in types
      ensures tb.attributes == typeAttributes && tb.parent == ObjectType && tb.interfaces == interfaces
      ensures tb.fields == [] && tb.ctor == None && tb.methods == []
    {
      tb := new TypeBuilder(Emitted(nextSerial), typeAttributes, ObjectType, interfaces);
      nextSerial := nextSerial + 1;
    }

    /** Bakes a builder into a type, whose static fields start out null; a
        type `Rejection` refuses is not created. */
    method CreateType(tb: TypeBuilder) returns (r: Result<TypeId, CreateTypeError>)
      requires Valid()
      requires tb.id.Emitted? && tb.id.serial < nextSerial && tb.id !in types
      modifies this`types, this`statics
      ensures Valid()
      ensures !Loadable(tb.Bake()) ==>
                r == Failure(Rejection(tb.Bake()).value) && types == old(types) && statics == old(statics)
      ensures Loadable(tb.Bake()) ==>
                && r == Success(tb.id)
                && types == old(types)[tb.id := tb.Bake()]
                && statics == old(statics) + map f | f in StaticSlots(tb.Bake()) :: Null
    {
      var def := tb.Bake();
      var rejection := Rejection(def);
      if rejection.Some? {
        return Failure(rejection.value);
      }
      types := types[tb.id := def];
      statics := statics + map f | f in StaticSlots(def) :: Null;
      r := Success(tb.id);
    }

    /** `Type.InvokeMember(name, Public | Static | SetField, ...)`. */
    method SetStaticField(t: TypeId, name: string, v: Value)
      requires t in types && HasPublicStaticField(types[t], name)
      modifies this`statics
      ensures statics == old(statics)[FieldRef(t, name) := v]
    {
      statics := statics[FieldRef(t, name) := v];
    }
  }
}

=== FILE: sample_scenario.dfy ===
/// The sample service of the repository as a concrete world: the contract
/// ISampleService with its one method `int Calculate(int value1, int value2)`,
/// the class SampleService that implements it by adding its arguments, and the
/// factory delegate that creates a SampleService.  The lemmas replay what the
/// repository's unit tests check of the factory.

module SampleScenario {
  import opened Clr
  import opened Il
  import opened ReflectionEmit
  import opened ProxyShape
  import opened ServiceProxy
  import opened ProxyBehaviour
  import opened Wrappers

  const Int32Type: TypeId := Builtin("System.Int32")
  const ISampleServiceId: TypeId := Declared(1)
  const SampleServiceId: TypeId := Declared(2)

  const CalculateContract: MethodInfo :=
    MethodInfo("Calculate", MethodPublic | MethodVirtual | MethodHideBySig | MethodNewSlot | MethodAbstract,
               Int32Type, [Int32Type, Int32Type])

  const ISampleService: TypeInfo := TypeInfo(ISampleServiceId, true, true, [CalculateContract], [])

  /** The concrete class, which the factory must refuse. */
  const SampleService: TypeInfo :=
    TypeInfo(SampleServiceId, false, true,
             [MethodInfo("Calculate", MethodPublic | MethodVirtual | MethodHideBySig | MethodNewSlot,
                         Int32Type, [Int32Type, Int32Type])],
             [])

  /** An interface that extends ISampleService and declares nothing of its
      own: `GetMethods` reports no method for it. */
  const IDerivedService: TypeInfo := TypeInfo(Declared(3), true, true, [], [CalculateContract])

  /** ISampleService as it would be if declared `internal`: the proxy in its
      own dynamic assembly cannot see it. */
  const IInternalService: TypeInfo := TypeInfo(Declared(4), true, false, [CalculateContract], [])

  /** An interface whose `Calculate` has a default body, so the method does
      not carry the Abstract bit. */
  const IDefaultService: TypeInfo :=
    TypeInfo(Declared(5), true, true,
             [MethodInfo("Calculate", MethodPublic | MethodVirtual | MethodHideBySig | MethodNewSlot,
                         Int32Type, [Int32Type, Int32Type])],
             [])

  /** ISampleService extending a base interface that has only a default
      `Helper` and a static `Create`, neither of which a class must
      implement. */
  const IExtendedService: TypeInfo :=
    TypeInfo(Declared(6), true, true, [CalculateContract],
             [MethodInfo("Helper", MethodPublic | MethodVirtual | MethodHideBySig | MethodNewSlot,
                         Int32Type, []),
              MethodInfo("Create", MethodPublic | MethodStatic | MethodHideBySig,
                         Int32Type, [])])

  /** The delegate `CreateSampleService`. */
  const CreateSampleService: nat := 1

  /** Objects from this number on are SampleService instances. */
  const FirstService: nat := 100

  const EmptyState: ProxyState := ProxyState(map[], map[], map[], 0)

  /** The identity the first proxy type gets, and the static storage after
      CreateSampleService is bound into it. */
  const SampleProxy: TypeId := Emitted(0)

  function SampleStatics(): map<FieldRef, Value>
  {
    map[TargetFactorySlot(SampleProxy) := Ref(CreateSampleService)]
  }

  /** C#'s unchecked 32-bit addition. */
  function Int32Add(a: int, b: int): int
  {
    var s := (a + b) % 0x1_0000_0000;
    if s >= 0x8000_0000 then s - 0x1_0000_0000 else s
  }

  /** The factory hands out a new SampleService on every call; a
      SampleService answers Calculate with the sum of its arguments. */
  function SampleRespond(history: seq<Event>, ev: Event): Outcome
  {
    if ev.receiver == Ref(CreateSampleService) && ev.callee == FuncInvoke then
      Returned(Ref(FirstService + |history|))
    else if ev.receiver.Ref? && ev.receiver.obj >= FirstService && ev.callee.InterfaceMethod?
            && ev.callee.info.name == "Calculate" && |ev.args| == 2 && ev.args[0].Int? && ev.args[1].Int? then
      Returned(Int(Int32Add(ev.args[0].i, ev.args[1].i)))
    else
      Threw(Null)
  }

  function SampleWorld(): World
  {
    World((v: Value) => if v.Ref? && v.obj >= FirstService then SampleServiceId else ObjectType,
          (c: TypeId, i: TypeId) => c == i || (c == SampleServiceId && i == ISampleServiceId),
          SampleRespond)
  }

  /** Requesting a proxy for the concrete SampleService class fails with
      ArgumentOutOfRangeException and creates nothing. */
  lemma ConcreteClassIsRejected(s: ProxyState)
    ensures Request(s, SampleService, Ref(CreateSampleService)) == (Failure(NotAnInterface), s)
  {
  }

  /** A contract that only inherits its methods gets a proxy without
      forwarders, which the loader rejects: the request fails with a
      TypeLoadException and nothing is cached. */
  lemma DerivedContractIsRejected(s: ProxyState)
    requires IDerivedService !in s.cache
    ensures var (r, s') := Request(s, IDerivedService, Ref(CreateSampleService));
            && r == Failure(CreateTypeFailed(TypeLoadException(Emitted(s.nextSerial))))
            && s'.cache == s.cache
  {
    assert !Redeclared(IDerivedService.methods, IDerivedService.inheritedMethods[0]);
    RequestRejectsUnloadable(s, IDerivedService, Ref(CreateSampleService));
  }

  /** A contract the proxy cannot see is rejected by the loader with a
      TypeLoadException, and nothing is cached. */
  lemma InternalContractIsRejected(s: ProxyState)
    requires IInternalService !in s.cache
    ensures var (r, s') := Request(s, IInternalService, Ref(CreateSampleService));
            && r == Failure(CreateTypeFailed(TypeLoadException(Emitted(s.nextSerial))))
            && s'.cache == s.cache
  {
    RequestRejectsUnloadable(s, IInternalService, Ref(CreateSampleService));
  }

  /** A contract method with a default body gives the proxy a forwarder that
      is still abstract, which `CreateType` refuses with an
      InvalidOperationException before the loader is reached. */
  lemma DefaultMethodContractIsRejected(s: ProxyState)
    requires IDefaultService !in s.cache
    ensures var (r, s') := Request(s, IDefaultService, Ref(CreateSampleService));
            && r == Failure(CreateTypeFailed(InvalidOperation(Emitted(s.nextSerial))))
            && s'.cache == s.cache
  {
    assert !HasAttribute(IDefaultService.methods[0].attributes, MethodAbstract);
    RequestRejectsUnloadable(s, IDefaultService, Ref(CreateSampleService));
  }

  /** Inherited default and static methods need no forwarder: the request
      for IExtendedService succeeds and caches a fresh proxy type. */
  lemma ExtendedContractIsAccepted(s: ProxyState)
    requires ValidState(s) && IExtendedService !in s.cache
    ensures var (r, s') := Request(s, IExtendedService, Ref(CreateSampleService));
            && r == Success(Emitted(s.nextSerial))
            && s'.cache == s.cache[IExtendedService := Emitted(s.nextSerial)]
  {
    forall k | 0 <= k < |IExtendedService.methods|
      ensures Redeclared(IExtendedService.methods, IExtendedService.methods[k])
    {
      assert SameSignature(IExtendedService.methods[k], IExtendedService.methods[k]);
    }
    RequestMissAddsOneEntry(s, IExtendedService, Ref(CreateSampleService));
  }

  /** The first request for ISampleService creates the proxy type under the
      first fresh identity, caches it and binds CreateSampleService. */
  lemma SampleRequestCreatesProxy()
    ensures Request(EmptyState, ISampleService, Ref(CreateSampleService))
              == (Success(SampleProxy),
                  ProxyState(map[ISampleService := SampleProxy],
                             map[SampleProxy := ProxyDefinition(ISampleService, SampleProxy)],
                             SampleStatics(),
                             1))
  {
    assert WellFormedInterface(ISampleService);
    ProxyMirrorsInterface(ISampleService, SampleProxy);
  }

  /** Instantiating the sample proxy calls CreateSampleService once and keeps
      the first SampleService in `_target`. */
  lemma SampleConstruction(self: nat)
    ensures var c := Construct(ProxyDefinition(ISampleService, SampleProxy), self, SampleStatics(), SampleWorld(), map[], []);
            && c.Done?
            && FieldValue(c.heap, Slot(self, TargetSlot(SampleProxy))) == Ref(FirstService)
            && c.trace == [Invoked(Ref(CreateSampleService), FuncInvoke, [])]
  {
    InstantiationInvokesFactoryOnce(ISampleService, SampleProxy, self, SampleStatics(), SampleWorld(), map[], []);
    ConstructorRun(ISampleService.id, TargetFactorySlot(SampleProxy), TargetSlot(SampleProxy), self,
                   SampleStatics(), SampleWorld(), map[], []);
  }

  /** `Calculate(2, 2)` on an instance whose `_target` is a SampleService
      returns 4 after one call to that service. */
  lemma SampleCall(self: nat, heap: map<Slot, Value>, trace: seq<Event>)
    requires FieldValue(heap, Slot(self, TargetSlot(SampleProxy))) == Ref(FirstService)
    ensures var call := CallMethod(ProxyDefinition(ISampleService, SampleProxy), 0, self, [Int(2), Int(2)],
                                   SampleStatics(), SampleWorld(), heap, trace);
            && call.Done? && call.result == Some(Int(4))
            && call.trace == trace + [Invoked(Ref(FirstService), InterfaceMethod(ISampleServiceId, CalculateContract), [Int(2), Int(2)])]
  {
    CallOnConstructedProxy(ISampleService, SampleProxy, 0, self, [Int(2), Int(2)], SampleStatics(), SampleWorld(), heap, trace);
  }

  /** The proxy type for ISampleService implements ISampleService, has the
      public static TargetFactory field, can be instantiated, and
      `Calculate(2, 2)` on the instance returns 4 after one call to the
      factory and one call to the SampleService it produced. */
  lemma SampleProxyCalculates(self: nat)
    ensures var (r, s1) := Request(EmptyState, ISampleService, Ref(CreateSampleService));
            && r.Success?
            && r.value in s1.types
            && var def := s1.types[r.value];
            && Implements(def, ISampleService)
            && HasPublicStaticField(def, TargetFactoryFieldName)
            && var c := Construct(def, self, s1.statics, SampleWorld(), map[], []);
            && c.Done?
            && |def.methods| == 1
            && var call := CallMethod(def, 0, self, [Int(2), Int(2)], s1.statics, SampleWorld(), c.heap, c.trace);
            && call.Done? && call.result == Some(Int(4))
            && call.trace == [Invoked(Ref(CreateSampleService), FuncInvoke, []),
                              Invoked(Ref(FirstService), InterfaceMethod(ISampleServiceId, CalculateContract), [Int(2), Int(2)])]
  {
    SampleRequestCreatesProxy();
    var def := ProxyDefinition(ISampleService, SampleProxy);
    assert WellFormedInterface(ISampleService);
    ProxyMirrorsInterface(ISampleService, SampleProxy);
    ProxyStaticSlots(ISampleService, SampleProxy);
    SampleConstruction(self);
    var c := Construct(def, self, SampleStatics(), SampleWorld(), map[], []);
    SampleCall(self, c.heap, c.trace);
  }
}

=== FILE: service_proxy_factory.dfy ===
/// ServiceProxyFactory: validates the requested service contract, caches one
/// generated proxy type per contract, and on a cache miss emits the proxy
/// type (fields, constructor IL, forwarding IL), bakes it and binds the
/// target factory into its static `TargetFactory` field.  A proxy that
/// `CreateType` rejects is not cached, and the request fails.
///
/// `Request` is the meaning of one `GetProxyType` call on the abstract state
/// (cache, emitted types, static field values, next fresh identity);
/// `GetProxyType` is proved to implement it, and the lemmas below state what
/// a single request and a whole sequence of requests do to the cache and to
/// the factory bindings.

module ServiceProxy {
  import opened Clr
  import opened Il
  import opened ReflectionEmit
  import opened ProxyShape
  import opened Wrappers

  /** What `GetProxyType` throws: ArgumentOutOfRangeException(paramName,
      message) for a contract that is not an interface, or the exception of
      `CreateType` for a proxy it rejects. */
  datatype ProxyError =
    | ArgumentOutOfRange(paramName: string, message: string)
    | CreateTypeFailed(error: CreateTypeError)

  const NotAnInterface: ProxyError :=
    ArgumentOutOfRange("serviceContractType", "The service type must be an interface")

  /** The state one factory and its application domain share. */
  datatype ProxyState = ProxyState(
    cache: map<TypeInfo, TypeId>,
    types: map<TypeId, TypeDef>,
    statics: map<FieldRef, Value>,
    nextSerial: nat)

  /** Every emitted type has a used identity and is `Loadable`;
      every cached contract is an interface whose entry is a proxy type built
      for it, with its `TargetFactory` slot in place; distinct contracts have
      distinct proxy types. */
  ghost predicate ValidState(s: ProxyState)
  {
    && RegistryValid(s.types, s.nextSerial)
    && (forall c :: c in s.cache ==>
          && c.isInterface
          && s.cache[c] in s.types
          && s.types[s.cache[c]] == ProxyDefinition(c, s.cache[c])
          && TargetFactorySlot(s.cache[c]) in s.statics)
    && (forall c, d :: c in s.cache && d in s.cache && c != d ==> s.cache[c] != s.cache[d])
  }

  /** One `GetProxyType(serviceContractType, targetFactory)` call. */
  function Request(s: ProxyState, serviceContractType: TypeInfo, targetFactory: Value)
    : (Result<TypeId, ProxyError>, ProxyState)
  {
    if !serviceContractType.isInterface then
      (Failure(NotAnInterface), s)
    else if serviceContractType in s.cache then
      (Success(s.cache[serviceContractType]), s)
    else
      var t := Emitted(s.nextSerial);
      var rejection := Rejection(ProxyDefinition(serviceContractType, t));
      if rejection.Some? then
        (Failure(CreateTypeFailed(rejection.value)), s.(nextSerial := s.nextSerial + 1))
      else
        (Success(t),
         ProxyState(s.cache[serviceContractType := t],
                    s.types[t := ProxyDefinition(serviceContractType, t)],
                    s.statics[TargetFactorySlot(t) := targetFactory],
                    s.nextSerial + 1))
  }

  /** The state after a sequence of requests, each a contract and a factory. */
  function Replay(s: ProxyState, requests: seq<(TypeInfo, Value)>): ProxyState
    decreases |requests|
  {
    if |requests| == 0 then s
    else Replay(Request(s, requests[0].0, requests[0].1).1, requests[1..])
  }

  /** The factory bound to the proxy type cached for `c`. */
  function BoundFactory(s: ProxyState, c: TypeInfo): Value
    requires c in s.cache
  {
    StaticValue(s.statics, TargetFactorySlot(s.cache[c]))
  }

  /** A request for a contract that is not an interface fails with the
      out-of-range error and changes nothing; any other request succeeds
      exactly when the contract is cached or its proxy is loadable. */
  lemma RequestValidatesContract(s: ProxyState, serviceContractType: TypeInfo, targetFactory: Value)
    ensures var (r, s') := Request(s, serviceContractType, targetFactory);
            && (r == Failure(NotAnInterface) <==> !serviceContractType.isInterface)
            && (!serviceContractType.isInterface ==> s' == s)
            && (r.Success? <==>
                  serviceContractType.isInterface
                  && (serviceContractType in s.cache || ProxyableContract(serviceContractType)))
  {
    ProxyLoadable(serviceContractType, Emitted(s.nextSerial));
  }

  /** A miss for a contract that is not proxyable fails and caches, emits
      and binds nothing; only the fresh identity is used up. The error is
      InvalidOperationException when some contract method is not abstract,
      TypeLoadException otherwise. */
  lemma RequestRejectsUnloadable(s: ProxyState, serviceContractType: TypeInfo, targetFactory: Value)
    requires serviceContractType.isInterface && serviceContractType !in s.cache
    requires !ProxyableContract(serviceContractType)
    ensures var (r, s') := Request(s, serviceContractType, targetFactory);
            var t := Emitted(s.nextSerial);
            && (!AllAbstract(serviceContractType.methods) ==> r == Failure(CreateTypeFailed(InvalidOperation(t))))
            && (AllAbstract(serviceContractType.methods) ==> r == Failure(CreateTypeFailed(TypeLoadException(t))))
            && s'.cache == s.cache && s'.types == s.types && s'.statics == s.statics
            && s'.nextSerial == s.nextSerial + 1
  {
    ProxyLoadable(serviceContractType, Emitted(s.nextSerial));
  }

  /** A cache hit returns the cached type and changes nothing: the factory
      passed now is discarded and the first one stays bound. */
  lemma RequestHitKeepsBinding(s: ProxyState, serviceContractType: TypeInfo, targetFactory: Value)
    requires serviceContractType.isInterface && serviceContractType in s.cache
    ensures var (r, s') := Request(s, serviceContractType, targetFactory);
            && r == Success(s.cache[serviceContractType])
            && s' == s
            && BoundFactory(s', serviceContractType) == BoundFactory(s, serviceContractType)
  {
  }

  /** A cache miss adds exactly one entry, for the requested contract, whose
      type is fresh, is the proxy built for that contract and has the given
      factory bound; every other entry, type and binding is unchanged. */
  lemma RequestMissAddsOneEntry(s: ProxyState, serviceContractType: TypeInfo, targetFactory: Value)
    requires ValidState(s)
    requires serviceContractType.isInterface && serviceContractType !in s.cache
    requires ProxyableContract(serviceContractType)
    ensures var (r, s') := Request(s, serviceContractType, targetFactory);
            && r.Success?
            && r.value !in s.types
            && s'.cache == s.cache[serviceContractType := r.value]
            && s'.cache.Keys == s.cache.Keys + {serviceContractType}
            && s'.types[r.value] == ProxyDefinition(serviceContractType, r.value)
            && BoundFactory(s', serviceContractType) == targetFactory
            && (forall c :: c in s.cache ==>
                  s.cache[c] != r.value && s'.types[s.cache[c]] == s.types[s.cache[c]]
                  && BoundFactory(s', c) == BoundFactory(s, c))
  {
    var t := Emitted(s.nextSerial);
    ProxyLoadable(serviceContractType, t);
    forall c | c in s.cache
      ensures s.cache[c] != t
    {
      assert s.cache[c] in s.types;
    }
  }

  lemma RequestPreservesValid(s: ProxyState, serviceContractType: TypeInfo, targetFactory: Value)
    requires ValidState(s)
    ensures ValidState(Request(s, serviceContractType, targetFactory).1)
  {
    if serviceContractType.isInterface && serviceContractType !in s.cache {
      var t := Emitted(s.nextSerial);
      ProxyLoadable(serviceContractType, t);
      if ProxyableContract(serviceContractType) {
        RequestMissAddsOneEntry(s, serviceContractType, targetFactory);
      }
    }
  }

  /** Over any sequence of requests the state stays valid and the cache only
      grows: every entry present at the start is still there, mapped to the
      same type, with the same definition and the same factory bound. */
  lemma {:induction false} ReplayOnlyGrows(s: ProxyState, requests: seq<(TypeInfo, Value)>)
    requires ValidState(s)
    ensures var s' := Replay(s, requests);
            && ValidState(s')
            && (forall c :: c in s.cache ==>
                  c in s'.cache && s'.cache[c] == s.cache[c]
                  && s'.types[s.cache[c]] == s.types[s.cache[c]]
                  && BoundFactory(s', c) == BoundFactory(s, c))
    decreases |requests|
  {
    if |requests| > 0 {
      var (c0, f0) := requests[0];
      var s1 := Request(s, c0, f0).1;
      RequestPreservesValid(s, c0, f0);
      if c0.isInterface && c0 !in s.cache {
        ProxyLoadable(c0, Emitted(s.nextSerial));
        if ProxyableContract(c0) {
          RequestMissAddsOneEntry(s, c0, f0);
        }
      }
      ReplayOnlyGrows(s1, requests[1..]);
    }
  }

  /** First writer wins: after any sequence of requests, the factory bound to
      the proxy type of a contract is the one passed with the FIRST request
      for that contract; later factories for it are never bound. */
  lemma {:induction false} ReplayFirstWriterWins(s: ProxyState, requests: seq<(TypeInfo, Value)>, k: nat)
    requires ValidState(s)
    requires k < |requests|
    requires requests[k].0.isInterface && requests[k].0 !in s.cache && ProxyableContract(requests[k].0)
    requires forall j :: 0 <= j < k ==> requests[j].0 != requests[k].0
    ensures var s' := Replay(s, requests);
            requests[k].0 in s'.cache && BoundFactory(s', requests[k].0) == requests[k].1
    decreases |requests|
  {
    var (c0, f0) := requests[0];
    var s1 := Request(s, c0, f0).1;
    RequestPreservesValid(s, c0, f0);
    if k == 0 {
      RequestMissAddsOneEntry(s, c0, f0);
      ReplayOnlyGrows(s1, requests[1..]);
    } else {
      assert requests[0].0 != requests[k].0;
      ReplayFirstWriterWins(s1, requests[1..], k - 1);
    }
  }

  /** In a valid state every cached contract is proxyable, and its proxy
      type implements it, one concrete method per contract method. */
  lemma CachedTypesImplementContracts(s: ProxyState, c: TypeInfo)
    requires ValidState(s) && c in s.cache
    ensures ProxyableContract(c)
    ensures Implements(s.types[s.cache[c]], c) && NoAbstractMethod(s.types[s.cache[c]].methods)
    ensures |s.types[s.cache[c]].methods| == |c.methods|
  {
    var def := s.types[s.cache[c]];
    assert Loadable(def);
    ProxyLoadable(c, s.cache[c]);
    assert def.interfaces == [c];
  }

  class ServiceProxyFactory {
    var proxyCache: map<TypeInfo, TypeId>
    /** The application domain new proxy types are emitted into
        (`AppDomain.CurrentDomain` in the source). */
    const domain: AppDomain

    ghost function State(): ProxyState
      reads this, domain
    {
      ProxyState(proxyCache, domain.types, domain.statics, domain.nextSerial)
    }

    ghost predicate Valid()
      reads this, domain
    {
      ValidState(State())
    }

    constructor (domain: AppDomain)
      requires domain.Valid()
      ensures Valid() && this.domain == domain && proxyCache == map[]
    {
      this.domain := domain;
      proxyCache := map[];
    }

    /** Rejects a contract that is not an interface; otherwise returns the
        cached proxy type for it, creating and caching one on a miss; when
        creating fails, nothing is cached and the error propagates. */
    method GetProxyType(serviceContractType: TypeInfo, targetFactory: Value) returns (r: Result<TypeId, ProxyError>)
      requires Valid()
      modifies this`proxyCache, domain
      ensures Valid()
      ensures (r, State()) == Request(old(State()), serviceContractType, targetFactory)
    {
      if !serviceContractType.isInterface {
        return Failure(NotAnInterface);
      }
      ghost var before := State();
      if serviceContractType in proxyCache {
        r := Success(proxyCache[serviceContractType]);
      } else {
        var created := CreateProxyType(domain, serviceContractType, targetFactory);
        if created.Failure? {
          r := Failure(CreateTypeFailed(created.error));
        } else {
          proxyCache := proxyCache[serviceContractType := created.value];
          r := Success(created.value);
        }
      }
      RequestPreservesValid(before, serviceContractType, targetFactory);
    }

    /** Emits, bakes and binds the proxy type under a fresh identity; when
        `CreateType` rejects it, only the identity is used up. */
    static method CreateProxyType(domain: AppDomain, serviceType: TypeInfo, targetFactory: Value)
      returns (r: Result<TypeId, CreateTypeError>)
      requires domain.Valid()
      modifies domain
      ensures domain.Valid()
      ensures domain.nextSerial == old(domain.nextSerial) + 1
      ensures var t := Emitted(old(domain.nextSerial));
              && t !in old(domain.types)
              && (!Loadable(ProxyDefinition(serviceType, t)) ==>
                    && r == Failure(Rejection(ProxyDefinition(serviceType, t)).value)
                    && domain.types == old(domain.types) && domain.statics == old(domain.statics))
              && (Loadable(ProxyDefinition(serviceType, t)) ==>
                    && r == Success(t)
                    && domain.types == old(domain.types)[t := ProxyDefinition(serviceType, t)]
                    && domain.statics == old(domain.statics)[TargetFactorySlot(t) := targetFactory])
    {
      var typeBuilder := DefineProxyType(domain, serviceType);
      ghost var staticsBefore := domain.statics;
      r := domain.CreateType(typeBuilder);
      if r.Failure? {
        return;
      }
      var proxyType := r.value;
      ProxyStaticSlots(serviceType, proxyType);
      assert domain.statics == staticsBefore[TargetFactorySlot(proxyType) := Null];
      AssignTargetFactory(domain, proxyType, targetFactory);
    }

    /** The builder steps of `CreateProxyType`, up to `CreateType`: a fresh
        builder holding exactly the proxy definition for the contract. */
    static method DefineProxyType(domain: AppDomain, serviceType: TypeInfo) returns (typeBuilder: TypeBuilder)
      requires domain.Valid()
      modifies domain`nextSerial
      ensures domain.Valid()
      ensures domain.nextSerial == old(domain.nextSerial) + 1
      ensures fresh(typeBuilder) && typeBuilder.id == Emitted(old(domain.nextSerial)) && typeBuilder.id !in domain.types
      ensures typeBuilder.Bake() == ProxyDefinition(serviceType, typeBuilder.id)
    {
      typeBuilder := GetTypeBuilder(domain, serviceType);
      var targetFactoryField := DefineTargetFactoryField(typeBuilder);
      var targetField := DefineTargetField(serviceType, typeBuilder);
      ImplementParameterlessConstructor(serviceType, typeBuilder, targetFactoryField, targetField);
      ImplementMethods(serviceType, typeBuilder, targetField);
    }

    static method AssignTargetFactory(domain: AppDomain, proxyType: TypeId, targetFactory: Value)
      requires proxyType in domain.types
      requires HasPublicStaticField(domain.types[proxyType], TargetFactoryFieldName)
      modifies domain`statics
      ensures domain.statics == old(domain.statics)[TargetFactorySlot(proxyType) := targetFactory]
    {
      domain.SetStaticField(proxyType, TargetFactoryFieldName, targetFactory);
    }

    static method DefineTargetField(serviceContractType: TypeInfo, typeBuilder: TypeBuilder) returns (f: FieldRef)
      modifies typeBuilder`fields
      ensures typeBuilder.fields == old(typeBuilder.fields) + [FieldDef(TargetFieldName, serviceContractType.id, FieldInitOnly | FieldPrivate)]
      ensures f == TargetSlot(typeBuilder.id)
    {
      f := typeBuilder.DefineField(TargetFieldName, serviceContractType.id, FieldInitOnly | FieldPrivate);
    }

    static method DefineTargetFactoryField(typeBuilder: TypeBuilder) returns (f: FieldRef)
      modifies typeBuilder`fields
      ensures typeBuilder.fields == old(typeBuilder.fields) + [FieldDef(TargetFactoryFieldName, FuncOfObjectType, FieldPublic | FieldStatic)]
      ensures f == TargetFactorySlot(typeBuilder.id)
    {
      f := typeBuilder.DefineField(TargetFactoryFieldName, FuncOfObjectType, FieldPublic | FieldStatic);
    }

    /** A public parameterless constructor that calls Object's constructor,
        invokes the static factory, casts its product to the contract and
        stores it in `_target`. */
    static method ImplementParameterlessConstructor(serviceType: TypeInfo, typeBuilder: TypeBuilder,
                                                    targetFactoryField: FieldRef, targetField: FieldRef)
      modifies typeBuilder`ctor
      ensures typeBuilder.ctor == Some(ConstructorDef(ConstructorAttributes, [],
                                        ConstructorBody(serviceType.id, targetFactoryField, targetField)))
    {
      var ilGenerator := new ILGenerator();
      ilGenerator.Emit(Ldarg0);
      ilGenerator.Emit(Call(ObjectCtor));
      ilGenerator.Emit(Ldarg0);
      ilGenerator.Emit(Ldsfld(targetFactoryField));
      ilGenerator.Emit(Callvirt(FuncInvoke));
      ilGenerator.Emit(Castclass(serviceType.id));
      ilGenerator.Emit(Stfld(targetField));
      ilGenerator.Emit(Ret);
      assert ilGenerator.code == ConstructorBody(serviceType.id, targetFactoryField, targetField);
      typeBuilder.DefineConstructor(ConstructorAttributes, [], ilGenerator.code);
    }

    /** One forwarding method per contract method, emitted in order. */
    static method ImplementMethods(serviceContractType: TypeInfo, typeBuilder: TypeBuilder, targetField: FieldRef)
      modifies typeBuilder`methods
      ensures typeBuilder.methods == old(typeBuilder.methods) + ForwardingMethods(serviceContractType, targetField)
    {
      var targetMethods := GetTargetMethods(serviceContractType);
      var k := 0;
      while k < |targetMethods|
        invariant 0 <= k <= |targetMethods|
        invariant typeBuilder.methods == old(typeBuilder.methods) + ForwardingMethods(serviceContractType, targetField)[..k]
      {
        var targetMethod := targetMethods[k];
        var ilGenerator := new ILGenerator();
        ilGenerator.Emit(Ldarg0);
        ilGenerator.Emit(Ldfld(targetField));
        var n := |targetMethod.parameterTypes|;
        var i := 1;
        while i <= n
          modifies ilGenerator
          invariant 1 <= i <= n + 1
          invariant ilGenerator.code == [Ldarg0, Ldfld(targetField)] + LoadArguments(i - 1)
        {
          ilGenerator.Emit(Ldarg(i));
          i := i + 1;
        }
        ilGenerator.Emit(Callvirt(InterfaceMethod(serviceContractType.id, targetMethod)));
        ilGenerator.Emit(Ret);
        assert ilGenerator.code == ForwardingBody(serviceContractType.id, targetMethod, targetField);
        typeBuilder.DefineMethod(ProxySignature(targetMethod), ilGenerator.code);
        assert ForwardingMethods(serviceContractType, targetField)[..k + 1]
            == ForwardingMethods(serviceContractType, targetField)[..k] + [ForwardingMethod(serviceContractType.id, targetMethod, targetField)];
        k := k + 1;
      }
      assert ForwardingMethods(serviceContractType, targetField)[..k] == ForwardingMethods(serviceContractType, targetField);
    }

    /** The builder of a new public class implementing the contract. */
    static method GetTypeBuilder(domain: AppDomain, baseType: TypeInfo) returns (tb: TypeBuilder)
      requires domain.Valid()
      modifies domain`nextSerial
      ensures domain.Valid()
      ensures domain.nextSerial == old(domain.nextSerial) + 1
      ensures fresh(tb) && tb.id == Emitted(old(domain.nextSerial)) && tb.id !in domain.types
      ensures tb.attributes == ProxyTypeAttributes && tb.parent == ObjectType && tb.interfaces == [baseType]
      ensures tb.fields == [] && tb.ctor == None && tb.methods == []
    {
      tb := domain.DefineDynamicType(ProxyTypeAttributes, [baseType]);
    }
  }
}

=== FILE: wrappers.dfy ===
/// Option and Result, for absent values and for the errors the factory reports.

module Wrappers {

  datatype Option<+T> = None | Some(value: T)

  datatype Result<+T, +E> = Success(value: T) | Failure(error: E)
}
